=== FILE: README.md ===
# exceltable: the table extraction, in Dafny

This project models the core of the Sphinx extension `sphinxcontrib.exceltable`. That core reads a rectangular range of a spreadsheet into header rows and body rows of cell records, which the directive then renders as a table.

- **`toindex(col, row)`** turns a column name such as `"AB"` and a 1-based row into 0-based `(column, row)` indices.
- **`toname(colx, rowy)`** goes the other way.
- **`ExcelTable.create_table`** does the extraction:
  - It reads its `fromcell` and `tocell` arguments either as cell names (`"B10"`) or as comma-separated integers (`"1,9"`).
  - It loads the sheet through pandas with `skiprows`/`usecols` and cuts the frame with `iloc`.
  - It fills in missing endpoints.
  - It walks the range row by row. Each cell gets a width: the one `widths` gives, or 20. Cells are typed `header` above sheet line `nheader`. Header rows are made bold and filed under `headers`; the others go under `rows`.

The sheet is an abstract rectangular grid of opaque values (`Sheets.Grid<V>`). The loader is a pure function on that grid. Python's slice rules for `iloc` are written out, including negative bounds. The exceptions `create_table` raises itself, on text endpoints and on the loaded frame, become `Error` values:

- `ValueError` from `int()` is `InvalidInteger`.
- `IndexError` on a one-component endpoint is `MissingComponent`.
- `IndexError` from `iloc` outside the frame is `CellOutOfRange`.
- `IndexError` from `cols[0]` on an empty row is `EmptyRow`.

Modules, in dependency order:

- `Results`: `Option`, `Result`, `Error`.
- `Text`: Python's `int()` on text, `str()` of an integer, `str.split`.
- `Coordinates`: `toindex` and `toname`.
- `Addresses`: how an endpoint string is read.
- `Sheets`: the grid, the loader and the slices.
- `Extraction`: `create_table`.
- `Scenarios`: the ranges the repository's tests and class documentation read.

`Extraction.WalkRange` follows the nested loop statement by statement and is proved equal to its closed form `Extraction.TableOf`. `Extraction.CreateTable` runs `Extraction.Resolve` (the endpoint parsing and the frame cutting before the loop) and then `WalkRange`, and is proved equal to `Extraction.Extract`.

Two places where the code does not do what its documentation or its tests say are modelled as written and characterised exactly:

- `toname` is documented as the "opposite to `toindex`", but `toindex` does not invert it. `toindex` looks letters up in the alphabet `ABCDEFGHIJLKMNOPQRSTUVWXYZ`, where K and L are transposed. It also weighs the letter at position `i` by adding `26 * i` instead of multiplying by a power of 26.
  - `Coordinates.ToIndexAfterToName` proves that the round trip holds exactly for the columns 0..51 other than 10, 11, 36 and 37 (K, L, AK, AL).
  - `toname` itself writes the usual bijective base-26 names. `Coordinates.ColumnNumber` is the standard reading of those names, and the two are proved inverse.
  - The round trip the tests check, column 3, is among those that hold.
- The test at test/test_exceltable.py:44 expects 4 body rows from `create_table(fromcell=None, tocell='F9')`.
  - With no start cell the frame is the whole sheet, and the loop runs from sheet row 0 to row 8.
  - `Scenarios.OpenStartToF9` proves that this call either yields 9 body rows or fails on a cell outside the frame, whatever the sheet. So that expectation cannot be met by the code as written.

## Model

| member | source | states |
|---|---|---|
| Text.IntegerRoundTrip | src/sphinxcontrib/exceltable/__init__.py:364 | `int()` on a piece of text reads back the integer `str()` writes, whatever whitespace surrounds it |
| Text.ParseIntegerRejectsBlank | src/sphinxcontrib/exceltable/__init__.py:364 | `int()` of an empty or all-whitespace piece raises ValueError, so `"1,"` is not an endpoint |
| Text.SplitJoin | src/sphinxcontrib/exceltable/__init__.py:364 | splitting on the comma loses nothing: the pieces joined with commas give the text back |
| Text.JoinSplit | src/sphinxcontrib/exceltable/__init__.py:364 | splitting undoes joining pieces that hold no comma, piece for piece |
| Coordinates.AlphabetFind | src/sphinxcontrib/exceltable/__init__.py:463-468 | the alphabet lookup gives -1 exactly for characters outside A..Z, and a letter's place otherwise, except that K gives 11 and L gives 10 |
| Coordinates.ToIndexExamples | src/sphinxcontrib/exceltable/__init__.py:445-455 | the documented results of `toindex`: A1 is (0, 0), B10 is (1, 9), Z2 is (25, 1), AA27 is (26, 26), AB1 is (27, 0); also Z3, AA4, AB5 as the tests assert, and BA1 is (27, 0) like AB1 |
| Coordinates.ToIndex | src/sphinxcontrib/exceltable/__init__.py:440-471 | `toindex` gives the sum of the letters' alphabet places plus 13·n·(n−1) for an n-letter name, which on names over A..Z lies between 0 and 25n + 13n(n−1), and the row one less than given |
| Coordinates.ColumnIndexClosedForm | src/sphinxcontrib/exceltable/__init__.py:465-469 | the column `toindex` accumulates is the sum of the letters' alphabet places plus 13·n·(n−1) for an n-letter name, so it is not positional |
| Coordinates.ColumnIndexIgnoresOrder | src/sphinxcontrib/exceltable/__init__.py:465-469 | any two names with the same letters in any order get the same column |
| Coordinates.ColumnIndexBounds | src/sphinxcontrib/exceltable/__init__.py:465-471 | on names over A..Z the column is never negative and is at most 25n + 13n(n−1) |
| Coordinates.ColumnName | src/sphinxcontrib/exceltable/__init__.py:480-484 | `toname` writes only capitals, and writes nothing exactly when the column is negative |
| Coordinates.ToName | src/sphinxcontrib/exceltable/__init__.py:474-484 | `toname` writes only capitals, nothing exactly for a negative column, letters whose standard bijective base-26 reading is the column for every column ≥ −1, and the row one more than given |
| Coordinates.ColumnNameLength | src/sphinxcontrib/exceltable/__init__.py:479-483 | one letter exactly for columns 0..25, two for 26..701, three or more from 702 on |
| Coordinates.ColumnNameIsBijectiveBase26 | src/sphinxcontrib/exceltable/__init__.py:478-483 | the standard bijective base-26 reading of `toname`'s letters gives back the column, for every column ≥ −1 |
| Coordinates.ColumnNameCoversAllNames | src/sphinxcontrib/exceltable/__init__.py:478-483 | every non-empty name over A..Z is the name `toname` writes for its standard column number |
| Coordinates.LongNameSumBelowColumn | src/sphinxcontrib/exceltable/__init__.py:465-483 | from column 702 on, `toindex`'s largest possible sum for a name as long as `toname`'s is below the column, so long names never read back |
| Coordinates.ReadBackColumn | src/sphinxcontrib/exceltable/__init__.py:463-483 | `toindex` reads `toname`'s letters back as the same column exactly when the column is in 0..51 and is none of 10, 11, 36, 37 |
| Coordinates.ToIndexAfterToName | src/sphinxcontrib/exceltable/__init__.py:474-484 | `toindex(*toname(c, r)) == (c, r)` holds exactly for those columns, for every row; `toname` is not the inverse its docstring says |
| Coordinates.BrokenColumnNames | src/sphinxcontrib/exceltable/__init__.py:479-483 | `toname` writes K, L, AK, AL and BA for columns 10, 11, 36, 37 and 52 |
| Coordinates.ToIndexAfterToNameCounterexamples | src/sphinxcontrib/exceltable/__init__.py:463-471 | `toindex` reads those names back as 11, 10, 37, 36 and 27 |
| Addresses.MatchName | src/sphinxcontrib/exceltable/__init__.py:359 | a match has at least one capital, all of them a prefix of the text, and a row number ≥ 1; text that does not start with a capital never matches |
| Addresses.MatchNameParts | src/sphinxcontrib/exceltable/__init__.py:359-361 | a match consumes the opening capitals and then exactly the digits `str()` writes for its row number, and stops only at the end of the text or at a non-digit |
| Addresses.MatchNameExactly | src/sphinxcontrib/exceltable/__init__.py:359 | the pattern matches exactly when the text opens with one or more capitals followed by a digit 1..9 |
| Addresses.MatchNameOfRendered | src/sphinxcontrib/exceltable/__init__.py:359-361 | capitals, then a decimal row number, then anything not continuing the digits, match with exactly those letters and that number |
| Addresses.ParseAll | src/sphinxcontrib/exceltable/__init__.py:364 | the comma pieces are accepted exactly when each is an integer, giving one component per piece; otherwise ValueError |
| Addresses.ParseLoose | src/sphinxcontrib/exceltable/__init__.py:364 | `int()` over the comma pieces succeeds exactly when every piece is an integer, and then gives each piece's integer in order; otherwise ValueError |
| Addresses.ParseEndpoint | src/sphinxcontrib/exceltable/__init__.py:358-364 | a cell name resolves to `toindex`'s two non-negative components; other text gives one component per comma piece; the only failure is ValueError |
| Addresses.LooseEndpoint | src/sphinxcontrib/exceltable/__init__.py:363-364 | text that is not a cell name is accepted exactly when every comma piece is an integer, and then yields those integers |
| Addresses.NamedEndpoint | src/sphinxcontrib/exceltable/__init__.py:358-362 | a cell name reads as (the column `toindex` sums, the row number minus one) |
| Addresses.NamedEndpointRoundTrip | src/sphinxcontrib/exceltable/__init__.py:358-362 | the cell name `toname` writes reads back as the same cell exactly for columns 0..51 other than 10, 11, 36, 37 |
| Addresses.LoosePairRoundTrip | src/sphinxcontrib/exceltable/__init__.py:363-364 | any two integers written as `"c,r"` read back as exactly that pair |
| Sheets.SliceBound | src/sphinxcontrib/exceltable/__init__.py:381 | a slice bound follows Python: kept when it is within the length, clipped to the length above it, counted from the end when negative, and clipped to 0 below that |
| Sheets.TakeRows | src/sphinxcontrib/exceltable/__init__.py:387-388 | `iloc[:k, :]` keeps the width and `SliceBound(k)` rows, each the sheet's own |
| Sheets.DropColumns | src/sphinxcontrib/exceltable/__init__.py:380-381 | `iloc[:, k:]` keeps every row and the columns from the slice bound on, also for negative k; every value is the sheet's, shifted by that bound |
| Sheets.SkipRows | src/sphinxcontrib/exceltable/__init__.py:376-377 | `skiprows=k` drops the first k rows, with k clipped to 0..height, and keeps the rest in place: the frame is the part of the sheet at that clipped row |
| Sheets.SelectColumns | src/sphinxcontrib/exceltable/__init__.py:375-377 | `usecols=range(a, b+1)` keeps the existing columns a..b in order, none when b < a; the frame is the part of the sheet at column a clipped to 0..width |
| Sheets.Load | src/sphinxcontrib/exceltable/__init__.py:375-377 | the loaded frame is the sheet when neither option is given; `skiprows` removes that many rows, clipped to the sheet; `usecols` a..b leaves the sheet's columns a..b that exist, none when b < a; it is the part of the sheet at (skiprows, first usecol), each clipped to the sheet, or at (0, 0) when an option is absent |
| Sheets.WindowCompose | src/sphinxcontrib/exceltable/__init__.py:376-388 | the loader's and slices' windows compose: a part of a part of the sheet is a part of the sheet, at the summed offsets |
| Extraction.ColumnWidth | src/sphinxcontrib/exceltable/__init__.py:406-408 | a column's width is never 0: a zero or missing width becomes the default |
| Extraction.ParseSpec | src/sphinxcontrib/exceltable/__init__.py:358-373 | an absent endpoint stays absent; a given one is read exactly as an endpoint string is, failing only with ValueError |
| Extraction.Resolve | src/sphinxcontrib/exceltable/__init__.py:358-394 | it succeeds exactly when each given endpoint reads as at least two components, and keeps the given endpoints' first two; a missing start becomes (0, 0) with the whole sheet as frame; a missing end becomes the frame's last cell; the frame's size follows the endpoints (from the start on to the sheet's edge, or the columns between the two and as many rows as the range); the frame is the part of the sheet at the start cell when that is non-negative, and for any given start at its origin: the start row clipped to the sheet, and the start column clipped (both endpoints given) or counted from the right when negative (start only) |
| Extraction.Cut | src/sphinxcontrib/exceltable/__init__.py:375-394 | for parsed endpoints, the loaded and sliced frame has the size the `skiprows`, `usecols` and `iloc` steps give it, the missing endpoints are filled in, and the frame is the part of the sheet at the start when that is non-negative, and for any given start at the origin where `skiprows`, `usecols` or `iloc[:, c:]` put it, counting a negative start column from the right when no end is given |
| Extraction.HeaderCount | src/sphinxcontrib/exceltable/__init__.py:412-413 | the header rows are those of the range above sheet line `nheader`: every row before the count is above it, none after |
| Extraction.TableOf | src/sphinxcontrib/exceltable/__init__.py:397-428 | the loop's result: it fails exactly when the range has rows but no columns (EmptyRow), or reaches outside the frame (CellOutOfRange); otherwise one row per range row, headers first, each as wide as the range, with each cell's type, width, value and bold flag |
| Extraction.WalkRange | src/sphinxcontrib/exceltable/__init__.py:397-428 | the nested loop, statement by statement, computes exactly the closed-form table, including which error it raises |
| Extraction.Extract | src/sphinxcontrib/exceltable/__init__.py:329-437 | a successful extraction has the promised shape (row count, header count, widths, types, bold headers); each cell holds the sheet value at its place in the range, counted from the start cell when that is non-negative and, for any given start, from the frame's origin on the sheet (the clipped start row, and the start column clipped or, with no end, counted from the right when negative); it records each given endpoint as read and the default start (0, 0), and with neither endpoint the sheet's last cell as end |
| Extraction.CreateTable | src/sphinxcontrib/exceltable/__init__.py:329-437 | `create_table` as run (resolve, then loop) gives exactly the extraction's result |
| Extraction.ExtractParseErrors | src/sphinxcontrib/exceltable/__init__.py:358-376 | ValueError exactly when a given endpoint is neither a cell name nor integers; a missing-component IndexError exactly when both read and one has a single component |
| Extraction.ResolveClosed | src/sphinxcontrib/exceltable/__init__.py:375-388 | two ordered, non-negative endpoints load the sheet's columns between them, from the start row on, cut to the range's row count, and keep the endpoints as given |
| Extraction.ClosedRange | src/sphinxcontrib/exceltable/__init__.py:375-405 | two ordered, non-negative endpoints succeed exactly when the end cell lies inside the sheet, and otherwise fail on a cell outside the frame |
| Extraction.BackwardsRange | src/sphinxcontrib/exceltable/__init__.py:399 | an end row above the start row gives an empty table on any sheet |
| Extraction.ReversedColumns | src/sphinxcontrib/exceltable/__init__.py:399-405 | an end column left of the start column, on or below the start row, fails on the empty first row |
| Extraction.OpenEndedRange | src/sphinxcontrib/exceltable/__init__.py:376-394 | a given start with no end records the start as read and ends at the start plus the loaded frame's size (the sheet from the start's row and column on); it fails (EmptyRow) only when rows remain but no columns; otherwise it has one row per frame row |
| Extraction.NegativeStartRange | src/sphinxcontrib/exceltable/__init__.py:376-394 | a start column c < 0 with -c at most the sheet's width, a start row within the sheet and no end succeeds, records the start, ends at column -1 of the last row, and holds every row from the start row on |
| Extraction.NegativeStartCountsFromRight | src/sphinxcontrib/exceltable/__init__.py:379-408 | for that start every row holds -c cells, and they are the sheet's last -c columns: each cell is the sheet value at its place counted from column width + c of the start row |
| Extraction.LastColumnStart | src/sphinxcontrib/exceltable/__init__.py:376-394 | any start that reads as column -1, row 0, with no end, on a sheet with at least one column, succeeds with one row per sheet row, each of one cell, drawn from the sheet's last column |
| Extraction.OpenEndedRangeReachesCorner | src/sphinxcontrib/exceltable/__init__.py:390-394 | a start inside the sheet with no end runs to the sheet's last cell |
| Extraction.OpenStartRange | src/sphinxcontrib/exceltable/__init__.py:387-405 | with no start and a given end, the whole sheet is the frame and the range starts at (0, 0): it fails exactly when it has rows and its end column is negative (EmptyRow) or its end lies outside the sheet (CellOutOfRange); otherwise it has end row + 1 rows |
| Extraction.WholeSheet | src/sphinxcontrib/exceltable/__init__.py:390-394 | with neither endpoint the range is the whole sheet, from (0, 0) to its last cell, one row per sheet row; it fails (EmptyRow) only on a sheet with rows but no columns |
| Scenarios.QuadrantB2C3 | test/test_exceltable.py:27-30 | B2:C3 gives no header rows and two body rows of two cells each, cell j of row k holding the sheet's value at row 1 + k, column 1 + j |
| Scenarios.HeaderAndThreeRows | test/test_exceltable.py:33 | A1:B4 with one header line gives one header row of two cells, every one bold, and three body rows |
| Scenarios.SingleHeaderCell | test/test_exceltable.py:34-35 | A1:A1 with one header line gives one header row holding the bold A1 cell and no body rows |
| Scenarios.BackwardsRangeIsEmpty | test/test_exceltable.py:36 | B2:A1 gives an empty table on every sheet |
| Scenarios.DocumentedEndpoints | src/sphinxcontrib/exceltable/__init__.py:310-316 | A1:C4 records endpoints (0, 0) and (2, 3); B10:B11 records (1, 9) and (1, 10) |
| Scenarios.MinusOneCommaZero | src/sphinxcontrib/exceltable/__init__.py:359-394 | `"-1,0"` is not a cell name and reads as column -1, row 0; as a start with no end, on a sheet with at least one column, it succeeds with one row per sheet row, each of one cell holding the sheet's value in the last column |
| Scenarios.OpenStartToF9 | src/sphinxcontrib/exceltable/__init__.py:387-405 | no start and end F9 succeed exactly on sheets of at least 6 columns and 9 rows, and then give 9 body rows; otherwise a cell outside the frame |

## Left out

- The directive itself is not part of this model, because it is docutils and Sphinx plumbing around `create_table`. That covers `ExcelTableDirective.run` and its option parsing, its selection splitting, percentage widths and node building, plus `DirectiveTemplate`, `Messenger` and `setup`.
- `pandas.read_excel` is a pure function on an abstract grid. Which sheet is selected, how files are read, header handling and value types are not modelled.
- The loader clips out-of-range or negative `skiprows` and `usecols` positions to the sheet. pandas may instead raise an error or read such values differently.
- A `usecols` range that is empty because the end column is left of the start column is modelled as selecting no columns. pandas' reading of an empty `usecols` list is assumed to agree.
- Line 384 relabels the columns `0..n-1`. Every access in the model is positional, so the relabelling changes nothing here.
- Coordinates.ColumnName: `int(colx / 26)` in `toname` is float division truncated. It is modelled as exact integer division, which agrees for columns below 2^53.
- Text.ParseInteger: Python's `int()` also accepts underscores between digits, non-ASCII digits and whitespace beyond space, tab, newline, return, vertical tab and form feed (such as the ASCII separators 0x1C..0x1F and Unicode spaces). Only ASCII digits, an optional sign and those six whitespace characters are modelled.
- Endpoints passed as tuples rather than strings are not modelled. Only strings and the absent endpoint are.
- Extraction.Extract records the endpoints as two components. Python keeps a loose endpoint with more than two comma pieces as the whole tuple, and only its first two components are ever used.
- Cell formatting beyond `bold` is not modelled, because the code leaves it as a TODO.
- doc/pandas_test.py is an ad-hoc script and is not part of this model.
- Several Python exceptions collapse into the four `Error` kinds above. Only the kinds are modelled, not the messages.
- Failures of `pandas.read_excel` itself (a missing or unreadable file, an unknown sheet) have no `Error` value, because the loader is a total function on a given grid.
- The TypeError Python raises on an endpoint that is neither text nor a tuple (bytes under Python 3, say) is not modelled, because endpoints are only text or absent.
- The model shows the expected 4 rows at test/test_exceltable.py:44 cannot arise (see above). That expectation is deliberately not asserted.

=== FILE: addresses.dfy ===
/** How `create_table` reads its `fromcell` and `tocell` strings: a cell name
    such as "B10" goes through `toindex`; anything else is read as
    comma-separated integers. */
module Addresses {
  import opened Results
  import opened Text
  import opened Coordinates

  /** Length of the run of upper-case letters at the start of `s`. */
  function UpperRun(s: string): (n: nat)
    ensures n <= |s|
    ensures forall i :: 0 <= i < n ==> IsUpper(s[i])
    ensures n < |s| ==> !IsUpper(s[n])
  {
    if |s| > 0 && IsUpper(s[0]) then 1 + UpperRun(s[1..]) else 0
  }

  /** Length of the run of decimal digits at the start of `s`. */
  function DigitRun(s: string): (n: nat)
    ensures n <= |s|
    ensures forall i :: 0 <= i < n ==> IsDigit(s[i])
    ensures n < |s| ==> !IsDigit(s[n])
  {
    if |s| > 0 && IsDigit(s[0]) then 1 + DigitRun(s[1..]) else 0
  }

  /** The two groups of a successful match: column letters and row number. */
  datatype NamedCell = NamedCell(letters: string, number: nat)

  /** `re.match(r'(?P<chars>[A-Z]+)(?P<nums>[1-9]+[0-9]*)', s)`. The letters
      are the whole run of capitals that starts the text (a shorter run cannot
      be followed by a digit), the number is the whole run of digits after
      them, which must not start with 0; whatever follows is ignored. */
  function MatchName(s: string): (m: Option<NamedCell>)
    ensures m.Some? ==> |m.value.letters| >= 1 && m.value.number >= 1
    ensures m.Some? ==> m.value.letters <= s && forall i :: 0 <= i < |m.value.letters| ==> IsUpper(m.value.letters[i])
    ensures |s| == 0 || !IsUpper(s[0]) ==> m.None?
  {
    var k := UpperRun(s);
    if k == 0 || k == |s| || !('1' <= s[k] <= '9') then
      None
    else
      var digits := s[k..][..DigitRun(s[k..])];
      DecimalValuePositive(digits);
      Some(NamedCell(s[..k], DecimalValue(digits)))
  }

  /** Parses every piece with `int()`; the first piece that is not an integer
      raises ValueError. */
  function ParseAll(pieces: seq<string>): (r: Result<seq<int>>)
    ensures r.Ok? <==> forall i :: 0 <= i < |pieces| ==> ParseInteger(pieces[i]).Some?
    ensures r.Ok? ==> |r.value| == |pieces|
    ensures r.Ok? ==> forall i :: 0 <= i < |pieces| ==> ParseInteger(pieces[i]) == Some(r.value[i])
    ensures r.Err? ==> r.error == InvalidInteger
  {
    if |pieces| == 0 then
      Ok([])
    else
      match ParseInteger(pieces[0])
      case None => Err(InvalidInteger)
      case Some(v) =>
        var rest :- ParseAll(pieces[1..]);
        Ok([v] + rest)
  }

  /** `tuple([int(num) for num in s.split(u',')])`: one integer per comma
      piece, or ValueError when some piece is not an integer. */
  function ParseLoose(s: string): (r: Result<seq<int>>)
    ensures r.Ok? <==> forall i :: 0 <= i < |Split(s, ',')| ==> ParseInteger(Split(s, ',')[i]).Some?
    ensures r.Ok? ==> |r.value| == |Split(s, ',')|
    ensures r.Ok? ==> forall i :: 0 <= i < |Split(s, ',')| ==> ParseInteger(Split(s, ',')[i]) == Some(r.value[i])
    ensures r.Err? ==> r.error == InvalidInteger
  {
    var pieces := Split(s, ',');
    var parsed := ParseAll(pieces);
    assert parsed.Ok? ==> forall i :: 0 <= i < |Split(s, ',')| ==> ParseInteger(Split(s, ',')[i]).Some?;
    assert (forall i :: 0 <= i < |Split(s, ',')| ==> ParseInteger(Split(s, ',')[i]).Some?) ==> parsed.Ok?;
    parsed
  }

  /** An endpoint string as `create_table` reads it: the cell-name pattern
      first, through `toindex`; comma-separated integers otherwise. */
  function ParseEndpoint(text: string): (r: Result<seq<int>>)
    ensures MatchName(text).Some? ==> r.Ok? && |r.value| == 2 && r.value[0] >= 0 && r.value[1] >= 0
    ensures MatchName(text).Some? ==>
      r.value == [ToIndex(MatchName(text).value.letters, MatchName(text).value.number).0,
                  ToIndex(MatchName(text).value.letters, MatchName(text).value.number).1]
    ensures MatchName(text).None? && r.Ok? ==> |r.value| == |Split(text, ',')|
    ensures r.Err? ==> r.error == InvalidInteger
  {
    match MatchName(text)
    case Some(m) =>
      ColumnIndexBounds(m.letters);
      var (col, row) := ToIndex(m.letters, m.number);
      Ok([col, row])
    case None =>
      ParseLoose(text)
  }

  // ---------------------------------------------------------------------------

  /** Text that is not a cell name is accepted exactly when every
      comma-separated piece is an integer, and then gives one integer per piece. */
  lemma LooseEndpoint(text: string)
    requires MatchName(text).None?
    ensures var pieces := Split(text, ',');
      && (ParseEndpoint(text).Ok? <==> forall i :: 0 <= i < |pieces| ==> ParseInteger(pieces[i]).Some?)
      && (ParseEndpoint(text).Ok? ==> forall i :: 0 <= i < |pieces| ==> ParseInteger(pieces[i]) == Some(ParseEndpoint(text).value[i]))
  {
    assert ParseEndpoint(text) == ParseAll(Split(text, ','));
  }

  /** A cell name written as letters, the decimal row number, and anything
      that does not continue the digits, matches with exactly those groups. */
  lemma MatchNameOfRendered(letters: string, number: nat, rest: string)
    requires |letters| >= 1 && forall i :: 0 <= i < |letters| ==> IsUpper(letters[i])
    requires number >= 1
    requires |rest| == 0 || !IsDigit(rest[0])
    ensures MatchName(letters + DecimalString(number) + rest) == Some(NamedCell(letters, number))
  {
    var digits := DecimalString(number);
    var s := letters + digits + rest;
    var tail := digits + rest;
    assert s == letters + tail;
    UpperRunOf(letters, tail);
    var k := UpperRun(s);
    assert k == |letters| && s[k..] == tail;
    assert s[k] == digits[0] && '1' <= digits[0] <= '9';
    DigitRunOf(digits, rest);
    assert tail[..DigitRun(tail)] == digits;
    DecimalRoundTrip(number);
    assert s[..k] == letters;
  }

  lemma {:induction false} UpperRunOf(letters: string, rest: string)
    requires forall i :: 0 <= i < |letters| ==> IsUpper(letters[i])
    requires |rest| == 0 || !IsUpper(rest[0])
    ensures UpperRun(letters + rest) == |letters|
  {
    if |letters| > 0 {
      assert (letters + rest)[1..] == letters[1..] + rest;
      UpperRunOf(letters[1..], rest);
    } else {
      assert letters + rest == rest;
    }
  }

  lemma {:induction false} DigitRunOf(digits: string, rest: string)
    requires AllDigits(digits)
    requires |rest| == 0 || !IsDigit(rest[0])
    ensures DigitRun(digits + rest) == |digits|
  {
    if |digits| > 0 {
      assert (digits + rest)[1..] == digits[1..] + rest;
      DigitRunOf(digits[1..], rest);
    } else {
      assert digits + rest == rest;
    }
  }

  /** The converse of MatchNameOfRendered: a match consumes the capitals and
      then exactly the digits `str()` writes for the row number, and stops
      before anything that would continue the digits. */
  lemma MatchNameParts(s: string)
    requires MatchName(s).Some?
    ensures var m := MatchName(s).value;
      var n := |m.letters| + |DecimalString(m.number)|;
      && n <= |s|
      && s[..n] == m.letters + DecimalString(m.number)
      && (n == |s| || !IsDigit(s[n]))
  {
    var k := UpperRun(s);
    var t := s[k..];
    assert t[0] == s[k] && IsDigit(t[0]);
    var d := DigitRun(t);
    var digits := t[..d];
    assert digits[0] == s[k];
    DecimalStringOfValue(digits);
    assert MatchName(s).value == NamedCell(s[..k], DecimalValue(digits));
    assert s[..k + d] == s[..k] + digits;
    if k + d < |s| {
      assert s[k + d] == t[d];
    }
  }

  /** The pattern matches exactly when the text starts with one or more
      capitals followed by a digit other than 0. */
  lemma MatchNameExactly(s: string)
    ensures MatchName(s).Some? <==>
      exists k :: 1 <= k < |s| && (forall i :: 0 <= i < k ==> IsUpper(s[i])) && '1' <= s[k] <= '9'
  {
    if exists k :: 1 <= k < |s| && (forall i :: 0 <= i < k ==> IsUpper(s[i])) && '1' <= s[k] <= '9' {
      var k :| 1 <= k < |s| && (forall i :: 0 <= i < k ==> IsUpper(s[i])) && '1' <= s[k] <= '9';
      assert UpperRun(s) == k;
    }
  }

  /** A cell name resolves through toindex: column as toindex sums it, row one less. */
  lemma NamedEndpoint(letters: string, number: nat, rest: string)
    requires |letters| >= 1 && forall i :: 0 <= i < |letters| ==> IsUpper(letters[i])
    requires number >= 1
    requires |rest| == 0 || !IsDigit(rest[0])
    ensures ParseEndpoint(letters + DecimalString(number) + rest) == Ok([ColumnIndex(letters), number - 1])
  {
    MatchNameOfRendered(letters, number, rest);
  }

  /** The name toname writes for a cell reads back as that cell exactly on
      the columns where toindex inverts toname. */
  lemma NamedEndpointRoundTrip(colx: int, rowy: nat)
    ensures ParseEndpoint(ToName(colx, rowy).0 + DecimalString(ToName(colx, rowy).1)) == Ok([colx, rowy])
        <==> 0 <= colx < 52 && colx != 10 && colx != 11 && colx != 36 && colx != 37
  {
    var name := ColumnName(colx);
    if colx >= 0 {
      NamedEndpoint(name, rowy + 1, "");
      assert name + DecimalString(rowy + 1) + "" == name + DecimalString(rowy + 1);
      ReadBackColumn(colx);
    } else {
      var text := DecimalString(rowy + 1);
      assert name + text == text;
      assert MatchName(text).None?;
      assert ',' !in text by {
        assert AllDigits(text);
      }
      SplitWithoutSeparator(text, ',');
    }
  }

  lemma ParseTwoPieces(a: string, b: string, col: int, row: int)
    requires ParseInteger(a) == Some(col) && ParseInteger(b) == Some(row)
    ensures ParseAll([a, b]) == Ok([col, row])
  {
    assert [b][1..] == [];
    assert ParseAll([]) == Ok([]);
    assert ParseInteger([b][0]) == Some(row);
    assert ParseAll([b]) == Ok([row] + []);
    assert [row] + [] == [row];
    assert [a, b][1..] == [b];
    assert [col] + [row] == [col, row];
  }

  /** Two integers written with a comma between them read back as that pair. */
  lemma LoosePairRoundTrip(col: int, row: int)
    ensures ParseEndpoint(FormatInteger(col) + "," + FormatInteger(row)) == Ok([col, row])
  {
    var a := FormatInteger(col);
    var b := FormatInteger(row);
    var text := a + "," + b;
    assert MatchName(text).None? by {
      assert text[0] == a[0];
    }
    assert Split(text, ',') == [a, b] by {
      assert ',' !in a && ',' !in b;
      JoinSplit([a, b], ',');
      assert [a, b][1..] == [b];
      assert Join([a, b], ',') == text;
    }
    assert ParseInteger(a) == Some(col) by {
      IntegerRoundTrip(col, "", "");
      assert "" + a + "" == a;
    }
    assert ParseInteger(b) == Some(row) by {
      IntegerRoundTrip(row, "", "");
      assert "" + b + "" == b;
    }
    ParseTwoPieces(a, b, col, row);
    assert ParseEndpoint(text) == ParseAll(Split(text, ','));
  }
}

=== FILE: coordinates.dfy ===
/** Conversion between spreadsheet column letters and 0-based indices, as the
    two module-level helpers `toindex` and `toname` do it.

    `toname` writes the usual bijective base-26 names (A, ..., Z, AA, AB, ...).
    `toindex` is not its inverse: it looks letters up in an alphabet with K and
    L transposed, and it weighs the letter at position i (from the left) by
    adding 26 * i instead of multiplying by a power of 26. */
module Coordinates {
  import opened Text

  /** The alphabet `toindex` searches, K and L transposed as in the source. */
  const Alphabet: string := "ABCDEFGHIJLKMNOPQRSTUVWXYZ"

  /** The k-th upper-case letter, `chr(ord('A') + k)`. */
  function Letter(k: int): (ch: char)
    requires 0 <= k < 26
    ensures IsUpper(ch)
  {
    ('A' as int + k) as char
  }

  /** Position of the k-th letter in the transposed alphabet. */
  function Transposed(k: int): int {
    if k == 10 then 11 else if k == 11 then 10 else k
  }

  /** `s.find(ch, k)`: the first position at or after k holding ch, or -1. */
  function FindFrom(s: string, ch: char, k: nat): (i: int)
    requires k <= |s|
    decreases |s| - k
    ensures i == -1 || (k <= i < |s| && s[i] == ch)
    ensures i == -1 <==> forall j :: k <= j < |s| ==> s[j] != ch
    ensures i != -1 ==> forall j :: k <= j < i ==> s[j] != ch
  {
    if k == |s| then -1 else if s[k] == ch then k else FindFrom(s, ch, k + 1)
  }

  lemma AlphabetPositions()
    ensures |Alphabet| == 26
    ensures forall j :: 0 <= j < 26 ==> Alphabet[j] == Letter(Transposed(j))
  {
    forall j | 0 <= j < 26
      ensures Alphabet[j] == Letter(Transposed(j))
    {
      assert j == 0 || j == 1 || j == 2 || j == 3 || j == 4 || j == 5 || j == 6 || j == 7
        || j == 8 || j == 9 || j == 10 || j == 11 || j == 12 || j == 13 || j == 14 || j == 15
        || j == 16 || j == 17 || j == 18 || j == 19 || j == 20 || j == 21 || j == 22 || j == 23
        || j == 24 || j == 25;
    }
  }

  lemma FindInAlphabet(ch: char)
    ensures var i := FindFrom(Alphabet, ch, 0);
      && (i == -1 <==> !IsUpper(ch))
      && (IsUpper(ch) ==> i == Transposed(ch as int - 'A' as int))
  {
    if IsUpper(ch) {
      FindUpper(ch);
    } else {
      FindOther(ch);
    }
  }

  lemma FindUpper(ch: char)
    requires IsUpper(ch)
    ensures FindFrom(Alphabet, ch, 0) == Transposed(ch as int - 'A' as int)
  {
    AlphabetPositions();
    FindInTransposed(Alphabet, ch);
  }

  /** Searching any string laid out like the transposed alphabet. */
  lemma FindInTransposed(s: string, ch: char)
    requires |s| == 26 && forall j :: 0 <= j < 26 ==> s[j] == Letter(Transposed(j))
    requires IsUpper(ch)
    ensures FindFrom(s, ch, 0) == Transposed(ch as int - 'A' as int)
  {
    var i := FindFrom(s, ch, 0);
    var k := ch as int - 'A' as int;
    var t := Transposed(k);
    assert Letter(k) == ch;
    assert s[t] == Letter(Transposed(t));
    assert Transposed(t) == k;
    assert i != -1;
    assert Letter(Transposed(i)) == s[i] == ch;
    LetterInjective(Transposed(i), k);
  }

  lemma LetterInjective(a: int, b: int)
    requires 0 <= a < 26 && 0 <= b < 26 && Letter(a) == Letter(b)
    ensures a == b
  {
    assert Letter(a) as int == 'A' as int + a;
    assert Letter(b) as int == 'A' as int + b;
  }

  lemma FindOther(ch: char)
    requires !IsUpper(ch)
    ensures FindFrom(Alphabet, ch, 0) == -1
  {
    AlphabetPositions();
    forall j | 0 <= j < |Alphabet|
      ensures Alphabet[j] != ch
    {
      assert IsUpper(Letter(Transposed(j)));
    }
  }

  /** `a2z.find(char)` in `toindex`: -1 for anything but A..Z, the letter's
      place in the alphabet otherwise, except that K reads as 11 and L as 10. */
  function AlphabetFind(ch: char): (i: int)
    ensures -1 <= i < 26
    ensures i == -1 <==> !IsUpper(ch)
    ensures IsUpper(ch) && ch != 'K' && ch != 'L' ==> i == ch as int - 'A' as int
    ensures ch == 'K' ==> i == 11
    ensures ch == 'L' ==> i == 10
  {
    FindInAlphabet(ch);
    FindFrom(Alphabet, ch, 0)
  }

  /** The column number `toindex` accumulates over its letters: the letter at
      position i, counted from the left from 0, adds `find(letter) + 26 * i`. */
  function ColumnIndex(letters: string): int {
    if |letters| == 0 then 0
    else ColumnIndex(letters[..|letters| - 1]) + AlphabetFind(letters[|letters| - 1]) + 26 * (|letters| - 1)
  }

  /** `toindex(col, row)`: column number and 0-based row. */
  function ToIndex(col: string, row: int): (p: (int, int))
    ensures p.0 == LetterSum(col) + 13 * |col| * (|col| - 1)
    ensures (forall i :: 0 <= i < |col| ==> IsUpper(col[i])) ==>
      0 <= p.0 <= 25 * |col| + 13 * |col| * (|col| - 1)
    ensures p.1 + 1 == row
  {
    ColumnIndexClosedForm(col);
    assert (forall i :: 0 <= i < |col| ==> IsUpper(col[i])) ==>
      0 <= ColumnIndex(col) <= 25 * |col| + 13 * |col| * (|col| - 1) by {
      if forall i :: 0 <= i < |col| ==> IsUpper(col[i]) {
        ColumnIndexBounds(col);
      }
    }
    (ColumnIndex(col), row - 1)
  }

  /** The letters `toname` builds for column `colx`: while colx >= 0 it
      prepends `chr(ord('A') + colx % 26)` and continues with `colx / 26 - 1`. */
  function ColumnName(colx: int): (name: string)
    ensures forall i :: 0 <= i < |name| ==> IsUpper(name[i])
    ensures |name| == 0 <==> colx < 0
    decreases colx
  {
    if colx < 0 then "" else ColumnName(colx / 26 - 1) + [Letter(colx % 26)]
  }

  /** `toname(colx, rowy)`: column letters and 1-based row. */
  function ToName(colx: int, rowy: int): (p: (string, int))
    ensures forall i :: 0 <= i < |p.0| ==> IsUpper(p.0[i])
    ensures |p.0| == 0 <==> colx < 0
    ensures colx >= -1 ==> ColumnNumber(p.0) == colx
    ensures p.1 - 1 == rowy
  {
    var name := ColumnName(colx);
    assert colx >= -1 ==> ColumnNumber(name) == colx by {
      if colx >= -1 {
        ColumnNameIsBijectiveBase26(colx);
      }
    }
    (name, rowy + 1)
  }

  /** Sum of the alphabet positions of the letters, order ignored. */
  function LetterSum(letters: string): int {
    if |letters| == 0 then 0 else LetterSum(letters[..|letters| - 1]) + AlphabetFind(letters[|letters| - 1])
  }

  /** The standard (positional) reading of a column name in bijective base 26:
      A = 1, ..., Z = 26, AA = 27, ...; ColumnNumber subtracts one. */
  function BijectiveValue(name: string): nat
    requires forall i :: 0 <= i < |name| ==> IsUpper(name[i])
  {
    if |name| == 0 then 0
    else
      var last := name[|name| - 1];
      assert IsUpper(last);
      BijectiveValue(name[..|name| - 1]) * 26 + (last as int - 'A' as int + 1)
  }

  function ColumnNumber(name: string): int
    requires forall i :: 0 <= i < |name| ==> IsUpper(name[i])
  {
    BijectiveValue(name) - 1
  }

  // ---------------------------------------------------------------------------
  // toindex: the column number is a sum, not a positional value

  /** toindex's column is the sum of the letters' alphabet positions plus
      26 * (0 + 1 + ... + (n - 1)) for an n-letter name. */
  lemma {:induction false} ColumnIndexClosedForm(letters: string)
    ensures ColumnIndex(letters) == LetterSum(letters) + 13 * |letters| * (|letters| - 1)
  {
    var n := |letters|;
    if n > 0 {
      ColumnIndexClosedForm(letters[..n - 1]);
      TriangleStep(n);
    }
  }

  lemma TriangleStep(n: int)
    ensures 13 * (n - 1) * (n - 2) + 26 * (n - 1) == 13 * n * (n - 1)
  {
  }

  lemma {:induction false} LetterSumConcat(a: string, b: string)
    ensures LetterSum(a + b) == LetterSum(a) + LetterSum(b)
  {
    if |b| == 0 {
      assert a + b == a;
    } else {
      assert (a + b)[..|a + b| - 1] == a + b[..|b| - 1];
      LetterSumConcat(a, b[..|b| - 1]);
    }
  }

  lemma {:induction false} LetterSumPermutation(s: string, t: string)
    requires multiset(s) == multiset(t)
    ensures LetterSum(s) == LetterSum(t)
    decreases |s|
  {
    assert |s| == |multiset(s)| == |multiset(t)| == |t|;
    if |s| > 0 {
      var x := s[|s| - 1];
      var init := s[..|s| - 1];
      assert s == init + [x];
      assert x in multiset(t);
      var k :| 0 <= k < |t| && t[k] == x;
      var rest := t[..k] + t[k + 1..];
      assert t == t[..k] + [x] + t[k + 1..];
      assert multiset(t) == multiset(t[..k]) + multiset{x} + multiset(t[k + 1..]);
      assert multiset(rest) == multiset(t[..k]) + multiset(t[k + 1..]);
      assert multiset(s) == multiset(init) + multiset{x};
      assert multiset(init) == multiset(s) - multiset{x};
      assert multiset(rest) == multiset(t) - multiset{x};
      LetterSumPermutation(init, rest);
      LetterSumConcat(t[..k] + [x], t[k + 1..]);
      LetterSumConcat(t[..k], [x]);
      LetterSumConcat(t[..k], t[k + 1..]);
      assert LetterSum([x]) == AlphabetFind(x) by {
        assert [x][..0] == [];
      }
    }
  }

  /** Reordering the letters does not change toindex's column: "AB" and "BA"
      both give 27. */
  lemma ColumnIndexIgnoresOrder(s: string, t: string)
    requires multiset(s) == multiset(t)
    ensures ColumnIndex(s) == ColumnIndex(t)
  {
    assert |s| == |multiset(s)| == |multiset(t)| == |t|;
    ColumnIndexClosedForm(s);
    ColumnIndexClosedForm(t);
    LetterSumPermutation(s, t);
  }

  lemma {:induction false} LetterSumBounds(letters: string)
    requires forall i :: 0 <= i < |letters| ==> IsUpper(letters[i])
    ensures 0 <= LetterSum(letters) <= 25 * |letters|
  {
    if |letters| > 0 {
      LetterSumBounds(letters[..|letters| - 1]);
    }
  }

  /** On upper-case letters toindex's column is never negative and stays
      below 25n + 13n(n - 1) for an n-letter name. */
  lemma ColumnIndexBounds(letters: string)
    requires forall i :: 0 <= i < |letters| ==> IsUpper(letters[i])
    ensures 0 <= ColumnIndex(letters) <= 25 * |letters| + 13 * |letters| * (|letters| - 1)
  {
    ColumnIndexClosedForm(letters);
    LetterSumBounds(letters);
    PronicNonNegative(|letters|);
  }

  lemma PronicNonNegative(n: nat)
    ensures 13 * n * (n - 1) >= 0
  {
    if n > 0 {
      assert n * (n - 1) >= 0;
    }
  }

  /** The documented examples of `toindex` and the ones the tests assert. */
  lemma ToIndexExamples()
    ensures ToIndex("A", 1) == (0, 0)
    ensures ToIndex("B", 10) == (1, 9)
    ensures ToIndex("Z", 2) == (25, 1)
    ensures ToIndex("AA", 27) == (26, 26)
    ensures ToIndex("AB", 1) == (27, 0)
    ensures ToIndex("Z", 3) == (25, 2)
    ensures ToIndex("AA", 4) == (26, 3)
    ensures ToIndex("AB", 5) == (27, 4)
    ensures ToIndex("BA", 1) == (27, 0)
  {
    assert "AA"[..1] == "A";
    assert "AB"[..1] == "A";
    assert "BA"[..1] == "B";
  }

  // ---------------------------------------------------------------------------
  // toname: bijective base 26

  /** One letter exactly for columns 0..25, two for 26..701, more beyond. */
  lemma ColumnNameLength(colx: int)
    ensures |ColumnName(colx)| == 1 <==> 0 <= colx < 26
    ensures |ColumnName(colx)| == 2 <==> 26 <= colx < 702
    ensures |ColumnName(colx)| >= 3 <==> colx >= 702
  {
    if colx >= 0 {
      var q := colx / 26 - 1;
      assert |ColumnName(colx)| == |ColumnName(q)| + 1;
      if q >= 0 {
        var q2 := q / 26 - 1;
        assert |ColumnName(q)| == |ColumnName(q2)| + 1;
        assert q2 >= 0 <==> colx >= 702;
      }
    }
  }

  /** toname's letters are the bijective base-26 name of the column. */
  lemma {:induction false} ColumnNameIsBijectiveBase26(colx: int)
    requires colx >= -1
    ensures ColumnNumber(ColumnName(colx)) == colx
    decreases colx + 1
  {
    if colx >= 0 {
      var q := colx / 26 - 1;
      var name := ColumnName(colx);
      assert name[..|name| - 1] == ColumnName(q);
      ColumnNameIsBijectiveBase26(q);
    }
  }

  /** Every non-empty name over A..Z is the name toname gives its column. */
  lemma {:induction false} ColumnNameCoversAllNames(name: string)
    requires |name| >= 1 && forall i :: 0 <= i < |name| ==> IsUpper(name[i])
    ensures ColumnName(ColumnNumber(name)) == name
  {
    var init := name[..|name| - 1];
    var d := name[|name| - 1] as int - 'A' as int;
    var c := ColumnNumber(name);
    assert c == BijectiveValue(init) * 26 + d;
    assert c % 26 == d && c / 26 - 1 == BijectiveValue(init) - 1;
    assert Letter(d) == name[|name| - 1];
    if |init| > 0 {
      ColumnNameCoversAllNames(init);
    }
    assert name == init + [name[|name| - 1]];
  }

  // ---------------------------------------------------------------------------
  // toindex after toname

  /** Names of four letters or more are far too long for toindex's sum: past
      column 701 the sum stays below the column. */
  lemma {:induction false} LongNameSumBelowColumn(colx: int)
    requires colx >= 702
    ensures var n := |ColumnName(colx)|; 13 * n * n + 12 * n < colx
    decreases colx
  {
    var q := colx / 26 - 1;
    var n := |ColumnName(colx)|;
    var a := |ColumnName(q)|;
    assert n == a + 1;
    assert q >= 26;
    if q < 702 {
      ColumnNameLength(q);
      assert a == 2;
    } else {
      LongNameSumBelowColumn(q);
      assert 13 * a * a + 12 * a < q;
      assert a >= 1;
      assert 13 * a <= 13 * a * a;
      assert 26 * a <= 25 * q + 1;
      assert 13 * n * n + 12 * n == 13 * a * a + 12 * a + 26 * a + 25;
      assert colx >= 26 * q + 26;
    }
  }

  /** A one-letter name reads back as its letter's place in the transposed alphabet. */
  lemma OneLetterReadBack(colx: int)
    requires 0 <= colx < 26
    ensures ColumnIndex(ColumnName(colx)) == Transposed(colx)
  {
    OneLetterName(colx);
    OneLetterIndex(Letter(colx));
    FindLetter(colx);
  }

  lemma OneLetterName(colx: int)
    requires 0 <= colx < 26
    ensures ColumnName(colx) == [Letter(colx)]
  {
    assert colx / 26 == 0 && colx % 26 == colx;
    assert ColumnName(colx) == ColumnName(-1) + [Letter(colx)];
  }

  lemma OneLetterIndex(a: char)
    ensures ColumnIndex([a]) == AlphabetFind(a)
  {
    assert [a][..0] == [];
  }

  /** A two-letter name reads back as the sum of its letters' places plus 26. */
  lemma TwoLetterReadBack(colx: int)
    requires 26 <= colx < 702
    ensures ColumnIndex(ColumnName(colx)) == Transposed(colx / 26 - 1) + Transposed(colx % 26) + 26
  {
    TwoLetterName(colx);
    TwoLetterIndex(Letter(colx / 26 - 1), Letter(colx % 26));
    FindLetter(colx / 26 - 1);
    FindLetter(colx % 26);
  }

  lemma FindLetter(k: int)
    requires 0 <= k < 26
    ensures AlphabetFind(Letter(k)) == Transposed(k)
  {
    FindInAlphabet(Letter(k));
    assert Letter(k) as int - 'A' as int == k;
  }

  lemma TwoLetterName(colx: int)
    requires 26 <= colx < 702
    ensures 0 <= colx / 26 - 1 < 26
    ensures ColumnName(colx) == [Letter(colx / 26 - 1), Letter(colx % 26)]
  {
    var q := colx / 26 - 1;
    assert ColumnName(q) == [Letter(q)] by {
      assert q / 26 - 1 < 0;
    }
  }

  lemma TwoLetterIndex(a: char, b: char)
    requires IsUpper(a) && IsUpper(b)
    ensures ColumnIndex([a, b]) == AlphabetFind(a) + AlphabetFind(b) + 26
  {
    assert [a, b][..1] == [a];
    assert [a][..0] == [];
    assert ColumnIndex([a]) == AlphabetFind(a);
    assert ColumnIndex([a, b]) == ColumnIndex([a]) + AlphabetFind(b) + 26;
  }

  lemma TwoLetterCases(q: int, m: int)
    requires 0 <= q < 26 && 0 <= m < 26
    ensures Transposed(q) + Transposed(m) + 26 == 26 * q + 26 + m <==> q == 0 && m != 10 && m != 11
  {
  }

  /** toindex gives back the column of toname's letters exactly when the
      column is below 52 and is none of 10, 11, 36, 37 (K, L, AK, AL). */
  lemma ReadBackColumn(colx: int)
    ensures ColumnIndex(ColumnName(colx)) == colx
        <==> 0 <= colx < 52 && colx != 10 && colx != 11 && colx != 36 && colx != 37
  {
    var name := ColumnName(colx);
    if colx < 0 {
      assert ColumnIndex(name) == 0;
    } else if colx < 26 {
      OneLetterReadBack(colx);
    } else if colx < 702 {
      TwoLetterReadBack(colx);
      var q := colx / 26 - 1;
      var m := colx % 26;
      assert colx == 26 * q + 26 + m;
      TwoLetterCases(q, m);
    } else {
      LongNameSumBelowColumn(colx);
      ColumnIndexBounds(name);
      BoundExpanded(|name|);
    }
  }

  lemma BoundExpanded(n: int)
    ensures 25 * n + 13 * n * (n - 1) == 13 * n * n + 12 * n
  {
  }

  /** Reading back what toname wrote gives the cell exactly when the column
      is below 52 and is none of 10, 11, 36, 37; the row always comes back. */
  lemma ToIndexAfterToName(colx: int, rowy: int)
    ensures ToIndex(ToName(colx, rowy).0, ToName(colx, rowy).1) == (colx, rowy)
        <==> 0 <= colx < 52 && colx != 10 && colx != 11 && colx != 36 && colx != 37
  {
    var p := ToName(colx, rowy);
    assert p == (ColumnName(colx), rowy + 1);
    assert ToIndex(p.0, p.1) == (ColumnIndex(ColumnName(colx)), rowy);
    ReadBackColumn(colx);
  }

  /** The names toname writes for the columns where the round trip breaks. */
  lemma BrokenColumnNames()
    ensures ColumnName(10) == "K" && ColumnName(11) == "L"
    ensures ColumnName(36) == "AK" && ColumnName(37) == "AL" && ColumnName(52) == "BA"
  {
    assert ColumnName(-1) == "";
    assert ColumnName(0) == "A";
    assert ColumnName(1) == "B";
  }

  /** What toindex reads back at the columns where the round trip breaks. */
  lemma ToIndexAfterToNameCounterexamples()
    ensures ColumnIndex(ColumnName(10)) == 11 && ColumnIndex(ColumnName(11)) == 10
    ensures ColumnIndex(ColumnName(36)) == 37 && ColumnIndex(ColumnName(37)) == 36
    ensures ColumnIndex(ColumnName(52)) == 27
  {
    OneLetterReadBack(10);
    OneLetterReadBack(11);
    TwoLetterReadBack(36);
    assert 36 / 26 - 1 == 0 && 36 % 26 == 10;
    TwoLetterReadBack(37);
    assert 37 / 26 - 1 == 0 && 37 % 26 == 11;
    TwoLetterReadBack(52);
    assert 52 / 26 - 1 == 1 && 52 % 26 == 0;
  }
}

=== FILE: extraction.dfy ===
/** `ExcelTable.create_table`: the range between two endpoints of a sheet,
    read row by row into header rows and body rows of cell records. */
module Extraction {
  import opened Results
  import opened Text
  import opened Coordinates
  import opened Addresses
  import opened Sheets

  /** A zero-based (column, row) position. */
  datatype Address = Address(col: int, row: int)

  /** The 'type' entry of a cell record. */
  datatype CellType = Header | Row

  /** A cell record: the dictionary with 'type', 'width' and 'value'; `bold`
      stands for the 'bold' entry that header cells alone carry. */
  datatype Cell<V> = Cell(kind: CellType, width: int, value: V, bold: bool)

  /** The returned dictionary: its 'headers' list and its 'rows' list. */
  datatype Table<V> = Table(headers: seq<seq<Cell<V>>>, rows: seq<seq<Cell<V>>>)

  /** The frame cut to the range, with both endpoints filled in. */
  datatype Resolved<V> = Resolved(frame: Grid<V>, from: Address, to: Address)

  /** The table, together with the endpoints stored on the object. */
  datatype Extracted<V> = Extracted(table: Table<V>, from: Address, to: Address)

  /** The width a column gets when `widths` does not give one. */
  const DefaultWidth := 20

  /** The width of column `j` of a range `ncols` wide: the given width when
      `widths` has one per column and it is not 0, the default otherwise. */
  function ColumnWidth(widths: seq<int>, ncols: int, j: int): (w: int)
    requires 0 <= j < ncols
    ensures w != 0
  {
    var given := if |widths| == ncols then widths[j] else 0;
    if given == 0 then DefaultWidth else given
  }

  /** An endpoint argument, if given, read as its integer components. */
  function ParseSpec(spec: Option<string>): (r: Result<Option<seq<int>>>)
    ensures spec.None? <==> r == Ok(None)
    ensures spec.Some? ==> (r.Ok? <==> ParseEndpoint(spec.value).Ok?)
    ensures spec.Some? && r.Ok? ==> r.value == Some(ParseEndpoint(spec.value).value)
    ensures r.Err? ==> r.error == InvalidInteger
  {
    match spec
    case None => Ok(None)
    case Some(text) =>
      var parts :- ParseEndpoint(text);
      Ok(Some(parts))
  }

  /** An endpoint argument that `create_table` can use: absent, or text that
      reads as at least two components. */
  predicate Readable(spec: Option<string>) {
    spec.None? || (ParseEndpoint(spec.value).Ok? && |ParseEndpoint(spec.value).value| >= 2)
  }

  /** The cell a readable endpoint text names: its first two components. */
  function Given(text: string): Address
    requires Readable(Some(text))
  {
    var parts := ParseEndpoint(text).value;
    Address(parts[0], parts[1])
  }

  /** The part of `create_table` before its loop: both endpoints parsed
      (ValueError on text that is not an endpoint, IndexError on one with a
      single component), then the frame cut to them. */
  function Resolve<V>(sheet: Grid<V>, fromSpec: Option<string>, toSpec: Option<string>): (r: Result<Resolved<V>>)
    ensures r.Ok? <==> Readable(fromSpec) && Readable(toSpec)
    ensures r.Ok? && fromSpec.Some? ==> r.value.from == Given(fromSpec.value)
    ensures r.Ok? && toSpec.Some? ==> r.value.to == Given(toSpec.value)
    ensures r.Ok? && fromSpec.None? ==> r.value.from == Address(0, 0) && r.value.frame == sheet
    ensures r.Ok? && toSpec.None? ==>
      r.value.to == Address(r.value.from.col + r.value.frame.width - 1, r.value.from.row + r.value.frame.Height() - 1)
    ensures r.Ok? && fromSpec.Some? && toSpec.None? ==>
      && r.value.frame.width == sheet.width - SliceBound(r.value.from.col, sheet.width)
      && r.value.frame.Height() == sheet.Height() - Clip(r.value.from.row, sheet.Height())
    ensures r.Ok? && fromSpec.Some? && toSpec.Some? ==>
      && r.value.frame.width ==
           (if r.value.to.col < r.value.from.col then 0
            else Clip(r.value.to.col + 1, sheet.width) - Clip(r.value.from.col, sheet.width))
      && r.value.frame.Height() ==
           SliceBound(r.value.to.row - r.value.from.row + 1, sheet.Height() - Clip(r.value.from.row, sheet.Height()))
    ensures r.Ok? && r.value.from.col >= 0 && r.value.from.row >= 0 ==>
      Window(r.value.frame, sheet, r.value.from.row, r.value.from.col)
    ensures r.Ok? && fromSpec.Some? ==> var o := FrameOrigin(sheet, r.value.from, toSpec.Some?);
      Window(r.value.frame, sheet, o.row, o.col)
  {
    var from :- ParseSpec(fromSpec);
    var to :- ParseSpec(toSpec);
    if from.Some? && |from.value| < 2 then
      Err(MissingComponent)
    else if to.Some? && |to.value| < 2 then
      Err(MissingComponent)
    else
      var start := if from.Some? then Some(Address(from.value[0], from.value[1])) else None;
      var end := if to.Some? then Some(Address(to.value[0], to.value[1])) else None;
      assert start.Some? == fromSpec.Some? && end.Some? == toSpec.Some?;
      Ok(Cut(sheet, start, end))
  }

  /** The sheet cell at which the frame cut for a range starting at `from`
      begins. Its row is the start row as the loader skips rows, clipped to
      the sheet. Its column is the start column as `usecols` selects it when
      both endpoints are given, and otherwise as `iloc[:, col:]` reads it,
      counting from the right for a negative column. */
  function FrameOrigin<V>(sheet: Grid<V>, from: Address, bothGiven: bool): Address {
    Address(if bothGiven then Clip(from.col, sheet.width) else SliceBound(from.col, sheet.width),
            Clip(from.row, sheet.Height()))
  }

  /** The frame `create_table` cuts for two parsed endpoints: the sheet
      loaded from the start's row (and, when both endpoints are given, only
      the columns between them), columns dropped up to the start when no
      columns were selected, rows cut to the range; then the missing
      endpoints filled in, the start with (0, 0), the end with the last cell
      of the frame. */
  function Cut<V>(sheet: Grid<V>, from: Option<Address>, to: Option<Address>): (r: Resolved<V>)
    ensures from.None? ==> r.from == Address(0, 0) && r.frame == sheet
    ensures from.Some? ==> r.from == from.value
    ensures to.Some? ==> r.to == to.value
    ensures to.None? ==> r.to == Address(r.from.col + r.frame.width - 1, r.from.row + r.frame.Height() - 1)
    ensures from.Some? && to.None? ==>
      && r.frame.width == sheet.width - SliceBound(r.from.col, sheet.width)
      && r.frame.Height() == sheet.Height() - Clip(r.from.row, sheet.Height())
    ensures from.Some? && to.Some? ==>
      && r.frame.width == (if r.to.col < r.from.col then 0 else Clip(r.to.col + 1, sheet.width) - Clip(r.from.col, sheet.width))
      && r.frame.Height() == SliceBound(r.to.row - r.from.row + 1, sheet.Height() - Clip(r.from.row, sheet.Height()))
    ensures r.from.col >= 0 && r.from.row >= 0 ==> Window(r.frame, sheet, r.from.row, r.from.col)
    ensures from.Some? ==> var o := FrameOrigin(sheet, r.from, to.Some?); Window(r.frame, sheet, o.row, o.col)
  {
    var cut := CutFrame(sheet, from, to);
    var start := if from.Some? then from.value else Address(0, 0);
    var end := if to.Some? then to.value else Address(start.col + cut.width - 1, start.row + cut.Height() - 1);
    CutFrameFacts(sheet, from, to);
    Resolved(cut, start, end)
  }

  /** The frame alone: the sheet loaded from the start's row (and, when both
      endpoints are given, only the columns between them), columns dropped up
      to the start when no columns were selected, rows cut to the range. */
  function CutFrame<V>(sheet: Grid<V>, from: Option<Address>, to: Option<Address>): Grid<V> {
    var usecols := if from.Some? && to.Some? then Some((from.value.col, to.value.col)) else None;
    var skiprows := if from.Some? then Some(from.value.row) else None;
    var loaded := Load(sheet, usecols, skiprows);
    var noColumns := usecols.None? || usecols.value.1 < usecols.value.0;
    var shifted := if noColumns && from.Some? then DropColumns(loaded, from.value.col) else loaded;
    if from.Some? && to.Some? then TakeRows(shifted, to.value.row - from.value.row + 1) else shifted
  }

  /** What `Cut` promises of its frame, gathered from the steps. */
  lemma CutFrameFacts<V>(sheet: Grid<V>, from: Option<Address>, to: Option<Address>)
    ensures var cut := CutFrame(sheet, from, to);
      && (from.None? ==> cut == sheet)
      && (from.Some? && to.None? ==>
            && cut.width == sheet.width - SliceBound(from.value.col, sheet.width)
            && cut.Height() == sheet.Height() - Clip(from.value.row, sheet.Height()))
      && (from.Some? && to.Some? ==>
            && cut.width == (if to.value.col < from.value.col then 0
                             else Clip(to.value.col + 1, sheet.width) - Clip(from.value.col, sheet.width))
            && cut.Height() == SliceBound(to.value.row - from.value.row + 1, sheet.Height() - Clip(from.value.row, sheet.Height())))
      && (from.Some? && from.value.col >= 0 && from.value.row >= 0 ==>
            Window(cut, sheet, from.value.row, from.value.col))
      && (from.Some? ==> var o := FrameOrigin(sheet, from.value, to.Some?); Window(cut, sheet, o.row, o.col))
  {
    var usecols := if from.Some? && to.Some? then Some((from.value.col, to.value.col)) else None;
    var skiprows := if from.Some? then Some(from.value.row) else None;
    var loaded := Load(sheet, usecols, skiprows);
    var noColumns := usecols.None? || usecols.value.1 < usecols.value.0;
    var shifted := if noColumns && from.Some? then DropColumns(loaded, from.value.col) else loaded;
    var cut := if from.Some? && to.Some? then TakeRows(shifted, to.value.row - from.value.row + 1) else shifted;
    assert cut == CutFrame(sheet, from, to);
    CutSize(sheet, from, to, loaded, shifted, cut);
    CutWindow(sheet, from, to, loaded, shifted, cut);
    CutOrigin(sheet, from, to, loaded, shifted, cut);
  }

  /** The size of the cut frame, step by step. */
  lemma CutSize<V>(sheet: Grid<V>, from: Option<Address>, to: Option<Address>,
                   loaded: Grid<V>, shifted: Grid<V>, cut: Grid<V>)
    requires loaded == Load(sheet, if from.Some? && to.Some? then Some((from.value.col, to.value.col)) else None,
                                   if from.Some? then Some(from.value.row) else None)
    requires var noColumns := !(from.Some? && to.Some?) || to.value.col < from.value.col;
             shifted == if noColumns && from.Some? then DropColumns(loaded, from.value.col) else loaded
    requires cut == if from.Some? && to.Some? then TakeRows(shifted, to.value.row - from.value.row + 1) else shifted
    ensures from.None? ==> cut == sheet
    ensures from.Some? && to.None? ==>
      && cut.width == sheet.width - SliceBound(from.value.col, sheet.width)
      && cut.Height() == sheet.Height() - Clip(from.value.row, sheet.Height())
    ensures from.Some? && to.Some? ==>
      && cut.width == (if to.value.col < from.value.col then 0
                       else Clip(to.value.col + 1, sheet.width) - Clip(from.value.col, sheet.width))
      && cut.Height() == SliceBound(to.value.row - from.value.row + 1, sheet.Height() - Clip(from.value.row, sheet.Height()))
  {
    if from.Some? && to.None? {
      assert shifted == DropColumns(loaded, from.value.col);
      assert loaded.width == sheet.width;
    } else if from.Some? && to.value.col < from.value.col {
      assert loaded.width == 0;
      assert shifted == DropColumns(loaded, from.value.col);
    } else if from.Some? {
      assert shifted == loaded;
    }
  }

  /** Each step of the cut keeps the frame a part of the sheet, placed at the start cell. */
  lemma CutWindow<V>(sheet: Grid<V>, from: Option<Address>, to: Option<Address>,
                     loaded: Grid<V>, shifted: Grid<V>, cut: Grid<V>)
    requires loaded == Load(sheet, if from.Some? && to.Some? then Some((from.value.col, to.value.col)) else None,
                                   if from.Some? then Some(from.value.row) else None)
    requires var noColumns := !(from.Some? && to.Some?) || to.value.col < from.value.col;
             shifted == if noColumns && from.Some? then DropColumns(loaded, from.value.col) else loaded
    requires cut == if from.Some? && to.Some? then TakeRows(shifted, to.value.row - from.value.row + 1) else shifted
    ensures from.None? ==> Window(cut, sheet, 0, 0)
    ensures from.Some? && from.value.col >= 0 && from.value.row >= 0 ==>
      Window(cut, sheet, from.value.row, from.value.col)
  {
    if from.None? {
      assert Window(sheet, sheet, 0, 0);
    } else if from.value.col >= 0 && from.value.row >= 0 {
      var start := from.value;
      if to.Some? && to.value.col < start.col {
        assert cut.width == 0;
      } else if to.Some? {
        assert shifted == loaded && Window(shifted, sheet, start.row, start.col);
        WindowCompose(cut, shifted, sheet, 0, 0, start.row, start.col);
      } else {
        assert shifted == DropColumns(loaded, start.col) && Window(loaded, sheet, start.row, 0);
        WindowCompose(shifted, loaded, sheet, 0, start.col, start.row, 0);
      }
    }
  }

  /** Wherever the start cell lies, the cut frame is the part of the sheet
      at the frame's origin. */
  lemma CutOrigin<V>(sheet: Grid<V>, from: Option<Address>, to: Option<Address>,
                     loaded: Grid<V>, shifted: Grid<V>, cut: Grid<V>)
    requires loaded == Load(sheet, if from.Some? && to.Some? then Some((from.value.col, to.value.col)) else None,
                                   if from.Some? then Some(from.value.row) else None)
    requires var noColumns := !(from.Some? && to.Some?) || to.value.col < from.value.col;
             shifted == if noColumns && from.Some? then DropColumns(loaded, from.value.col) else loaded
    requires cut == if from.Some? && to.Some? then TakeRows(shifted, to.value.row - from.value.row + 1) else shifted
    ensures from.Some? ==> var o := FrameOrigin(sheet, from.value, to.Some?); Window(cut, sheet, o.row, o.col)
  {
    if from.Some? {
      var start := from.value;
      var row := Clip(start.row, sheet.Height());
      if to.None? {
        WindowCompose(shifted, loaded, sheet, 0, SliceBound(start.col, sheet.width), row, 0);
      } else if to.value.col < start.col {
        assert cut.width == 0;
      } else {
        WindowCompose(cut, shifted, sheet, 0, 0, row, Clip(start.col, sheet.width));
      }
    }
  }

  /** The table the loop of `create_table` builds over a frame already cut
      to the range, described row by row: one row per range row, each as
      wide as the range; the rows above line `nheader` of the sheet are
      header rows with bold cells, the rest body rows. The loop fails on the
      first row when the range has no columns, and on the first cell outside
      the frame otherwise. */
  function TableOf<V>(frame: Grid<V>, from: Address, to: Address, nheader: int, widths: seq<int>): (r: Result<Table<V>>)
    ensures var n := to.row - from.row + 1; var m := to.col - from.col + 1;
      r.Err? <==> n > 0 && (m <= 0 || n > frame.Height() || m > frame.width)
    ensures r.Err? ==> r.error == if to.col < from.col then EmptyRow else CellOutOfRange
    ensures r.Ok? ==> |r.value.headers| + |r.value.rows| == if to.row < from.row then 0 else to.row - from.row + 1
    ensures r.Ok? ==> |r.value.headers| + |r.value.rows| <= frame.Height()
    ensures r.Ok? && |r.value.headers| + |r.value.rows| > 0 ==> to.col - from.col + 1 <= frame.width
    ensures r.Ok? && to.row >= from.row ==>
      |r.value.headers| == if nheader <= from.row then 0 else if nheader > to.row then to.row - from.row + 1 else nheader - from.row
    ensures r.Ok? ==> forall i :: 0 <= i < |r.value.headers| ==> |r.value.headers[i]| == to.col - from.col + 1
    ensures r.Ok? ==> forall k :: 0 <= k < |r.value.rows| ==> |r.value.rows[k]| == to.col - from.col + 1
    ensures r.Ok? ==> forall i, j :: 0 <= i < |r.value.headers| && 0 <= j < |r.value.headers[i]| ==>
      r.value.headers[i][j] == Cell(Header, ColumnWidth(widths, to.col - from.col + 1, j), frame.cells[i][j], true)
    ensures r.Ok? ==> forall k, j :: 0 <= k < |r.value.rows| && 0 <= j < |r.value.rows[k]| ==>
      r.value.rows[k][j] == Cell(Row, ColumnWidth(widths, to.col - from.col + 1, j), frame.cells[|r.value.headers| + k][j], false)
  {
    var n := to.row - from.row + 1;
    var m := to.col - from.col + 1;
    if n <= 0 then
      Ok(Table([], []))
    else if m <= 0 then
      Err(EmptyRow)
    else if n > frame.Height() || m > frame.width then
      Err(CellOutOfRange)
    else
      var h := HeaderCount(nheader, from.row, n);
      Ok(Table(Rows(frame, 0, h, m, Header, widths), Rows(frame, h, n, m, Row, widths)))
  }

  /** How many of the `n` rows from sheet row `first` on lie above line `nheader`. */
  function HeaderCount(nheader: int, first: int, n: nat): (h: nat)
    ensures h <= n
    ensures h > 0 ==> first + h - 1 < nheader
    ensures h < n ==> first + h >= nheader
  {
    if nheader - first < 0 then 0 else if nheader - first > n then n else nheader - first
  }

  /** Rows lo..hi of the frame as rows of cell records of the given type. */
  function Rows<V>(frame: Grid<V>, lo: nat, hi: nat, ncols: nat, kind: CellType, widths: seq<int>): (rows: seq<seq<Cell<V>>>)
    requires lo <= hi <= frame.Height() && ncols <= frame.width
    ensures |rows| == hi - lo
    ensures forall k :: 0 <= k < hi - lo ==> |rows[k]| == ncols
    ensures forall k, j :: 0 <= k < hi - lo && 0 <= j < ncols ==>
      rows[k][j] == Cell(kind, ColumnWidth(widths, ncols, j), frame.cells[lo + k][j], kind == Header)
  {
    var rows := seq(hi - lo, k requires 0 <= k < hi - lo => RowOf(frame, lo + k, ncols, kind, widths));
    assert forall k :: 0 <= k < hi - lo ==> rows[k] == RowOf(frame, lo + k, ncols, kind, widths);
    rows
  }

  /** Row `i` of the frame as cell records of the given type. */
  function RowOf<V>(frame: Grid<V>, i: int, ncols: int, kind: CellType, widths: seq<int>): (row: seq<Cell<V>>)
    requires 0 <= i < frame.Height() && 0 <= ncols <= frame.width
    ensures |row| == ncols
    ensures forall j :: 0 <= j < ncols ==>
      row[j] == Cell(kind, ColumnWidth(widths, ncols, j), frame.cells[i][j], kind == Header)
  {
    seq(ncols, j requires 0 <= j < ncols => Cell(kind, ColumnWidth(widths, ncols, j), frame.cells[i][j], kind == Header))
  }

  /** The nested loop of `create_table`, statement by statement: a row of
      cells per range row, typed 'header' above line `nheader`, the row made
      bold and filed under 'headers' when its first cell is a header. */
  method WalkRange<V>(frame: Grid<V>, from: Address, to: Address, nheader: int, widths: seq<int>)
    returns (r: Result<Table<V>>)
    ensures r == TableOf(frame, from, to, nheader, widths)
  {
    var n := to.row - from.row + 1;
    var m := to.col - from.col + 1;
    var headers: seq<seq<Cell<V>>> := [];
    var rows: seq<seq<Cell<V>>> := [];
    var rowNum := from.row;
    while rowNum <= to.row
      invariant from.row <= rowNum
      invariant n > 0 ==> rowNum <= to.row + 1
      invariant n <= 0 ==> rowNum == from.row
      invariant rowNum > from.row ==> 0 < m <= frame.width && rowNum - from.row <= frame.Height()
      invariant |headers| == HeaderCount(nheader, from.row, rowNum - from.row)
      invariant |headers| + |rows| == rowNum - from.row
      invariant forall i :: 0 <= i < |headers| ==> headers[i] == RowOf(frame, i, m, Header, widths)
      invariant forall k :: 0 <= k < |rows| ==> rows[k] == RowOf(frame, |headers| + k, m, Row, widths)
    {
      var i := rowNum - from.row;
      var cols: seq<Cell<V>> := [];
      var cnum := from.col;
      while cnum <= to.col
        invariant from.col <= cnum
        invariant m > 0 ==> cnum <= to.col + 1
        invariant m <= 0 ==> cnum == from.col
        invariant cnum > from.col ==> i < frame.Height() && cnum - from.col <= frame.width
        invariant |cols| == cnum - from.col
        invariant forall j :: 0 <= j < |cols| ==>
          cols[j] == Cell(if rowNum < nheader then Header else Row, ColumnWidth(widths, m, j), frame.cells[i][j], false)
      {
        var j := cnum - from.col;
        if i >= frame.Height() || j >= frame.width {
          return Err(CellOutOfRange);
        }
        var value := frame.cells[i][j];
        var width := if |widths| == to.col + 1 - from.col then widths[j] else 0;
        if width == 0 {
          width := DefaultWidth;
        }
        var cell := Cell(Row, width, value, false);
        if rowNum < nheader {
          cell := cell.(kind := Header);
        }
        cols := cols + [cell];
        cnum := cnum + 1;
      }
      if |cols| == 0 {
        return Err(EmptyRow);
      }
      if cols[0].kind == Header {
        var bolded := seq(|cols|, j requires 0 <= j < |cols| => cols[j].(bold := true));
        assert bolded == RowOf(frame, i, m, Header, widths);
        headers := headers + [bolded];
      } else {
        assert cols == RowOf(frame, i, m, Row, widths);
        rows := rows + [cols];
      }
      rowNum := rowNum + 1;
    }
    if n > 0 {
      var h := HeaderCount(nheader, from.row, n);
      assert headers == Rows(frame, 0, h, m, Header, widths);
      assert rows == Rows(frame, h, n, m, Row, widths);
    }
    return Ok(Table(headers, rows));
  }

  /** `create_table` on a sheet: the range's rows as header and body cell
      records, and the endpoints it settled on. */
  function Extract<V>(sheet: Grid<V>, fromSpec: Option<string>, toSpec: Option<string>, nheader: int, widths: seq<int>)
    : (r: Result<Extracted<V>>)
    ensures r.Ok? && fromSpec.None? ==> r.value.from == Address(0, 0)
    ensures r.Ok? && fromSpec.Some? ==> Readable(fromSpec) && r.value.from == Given(fromSpec.value)
    ensures r.Ok? && toSpec.Some? ==> Readable(toSpec) && r.value.to == Given(toSpec.value)
    ensures r.Ok? && fromSpec.None? && toSpec.None? ==> r.value.to == Address(sheet.width - 1, sheet.Height() - 1)
    ensures r.Ok? ==> Shaped(r.value, nheader, widths)
    ensures r.Ok? && r.value.from.col >= 0 && r.value.from.row >= 0 ==> Drawn(r.value, sheet, r.value.from)
    ensures r.Ok? && fromSpec.Some? ==> Drawn(r.value, sheet, FrameOrigin(sheet, r.value.from, toSpec.Some?))
  {
    var res :- Resolve(sheet, fromSpec, toSpec);
    var origin := if fromSpec.Some? then FrameOrigin(sheet, res.from, toSpec.Some?) else res.from;
    Assemble(sheet, res, origin, nheader, widths)
  }

  /** The loop run over a resolved frame that is the part of the sheet at
      `origin`, with the endpoints it settled on. */
  function Assemble<V>(sheet: Grid<V>, res: Resolved<V>, origin: Address, nheader: int, widths: seq<int>)
    : (r: Result<Extracted<V>>)
    requires res.from.col >= 0 && res.from.row >= 0 ==> Window(res.frame, sheet, res.from.row, res.from.col)
    requires Window(res.frame, sheet, origin.row, origin.col)
    ensures r.Ok? ==> r.value.from == res.from && r.value.to == res.to
    ensures r.Ok? ==> Shaped(r.value, nheader, widths)
    ensures r.Ok? && res.from.col >= 0 && res.from.row >= 0 ==> Drawn(r.value, sheet, res.from)
    ensures r.Ok? ==> Drawn(r.value, sheet, origin)
  {
    var table :- TableOf(res.frame, res.from, res.to, nheader, widths);
    ExtractedTable(sheet, res, origin, nheader, widths, table);
    Ok(Extracted(table, res.from, res.to))
  }

  /** The layout `create_table` promises for the range between `x.from` and
      `x.to`: one row per range row, each as wide as the range; the rows
      above sheet line `nheader` are the header rows, with bold header cells,
      the others body rows; every column has the width `widths` gives it when
      it gives one per column and that width is not 0, and 20 otherwise. */
  ghost predicate Shaped<V>(x: Extracted<V>, nheader: int, widths: seq<int>) {
    var t := x.table;
    var n := x.to.row - x.from.row + 1;
    var m := x.to.col - x.from.col + 1;
    && |t.headers| + |t.rows| == (if n <= 0 then 0 else n)
    && (n > 0 ==> |t.headers| == if nheader <= x.from.row then 0 else if nheader > x.to.row then n else nheader - x.from.row)
    && (forall i :: 0 <= i < |t.headers| ==> |t.headers[i]| == m)
    && (forall k :: 0 <= k < |t.rows| ==> |t.rows[k]| == m)
    && (forall i, j :: 0 <= i < |t.headers| && 0 <= j < |t.headers[i]| ==>
          t.headers[i][j].kind == Header && t.headers[i][j].bold)
    && (forall i, j :: 0 <= i < |t.headers| && 0 <= j < |t.headers[i]| ==>
          t.headers[i][j].width == if |widths| == m && widths[j] != 0 then widths[j] else DefaultWidth)
    && (forall k, j :: 0 <= k < |t.rows| && 0 <= j < |t.rows[k]| ==>
          t.rows[k][j].kind == Row && !t.rows[k][j].bold)
    && (forall k, j :: 0 <= k < |t.rows| && 0 <= j < |t.rows[k]| ==>
          t.rows[k][j].width == if |widths| == m && widths[j] != 0 then widths[j] else DefaultWidth)
  }

  /** Every cell of the table holds the sheet's value at its place in the
      range, for a range whose first cell is the sheet cell `from`: header
      row i at sheet row from.row + i, body row k below all the header rows,
      column j at sheet column from.col + j. */
  ghost predicate Drawn<V>(x: Extracted<V>, sheet: Grid<V>, from: Address) {
    var t := x.table;
    && (forall i, j :: 0 <= i < |t.headers| && 0 <= j < |t.headers[i]| ==>
          0 <= from.row + i < sheet.Height() && 0 <= from.col + j < sheet.width &&
          t.headers[i][j].value == sheet.cells[from.row + i][from.col + j])
    && (forall k, j :: 0 <= k < |t.rows| && 0 <= j < |t.rows[k]| ==>
          0 <= from.row + |t.headers| + k < sheet.Height() && 0 <= from.col + j < sheet.width &&
          t.rows[k][j].value == sheet.cells[from.row + |t.headers| + k][from.col + j])
  }

  lemma ExtractedTable<V>(sheet: Grid<V>, res: Resolved<V>, origin: Address, nheader: int, widths: seq<int>, table: Table<V>)
    requires res.from.col >= 0 && res.from.row >= 0 ==> Window(res.frame, sheet, res.from.row, res.from.col)
    requires Window(res.frame, sheet, origin.row, origin.col)
    requires TableOf(res.frame, res.from, res.to, nheader, widths) == Ok(table)
    ensures Shaped(Extracted(table, res.from, res.to), nheader, widths)
    ensures res.from.col >= 0 && res.from.row >= 0 ==> Drawn(Extracted(table, res.from, res.to), sheet, res.from)
    ensures Drawn(Extracted(table, res.from, res.to), sheet, origin)
  {
    ExtractedShape(res, nheader, widths, table);
    if res.from.col >= 0 && res.from.row >= 0 {
      ExtractedValues(sheet, res, res.from, nheader, widths, table);
    }
    ExtractedValues(sheet, res, origin, nheader, widths, table);
  }

  lemma ExtractedValues<V>(sheet: Grid<V>, res: Resolved<V>, origin: Address, nheader: int, widths: seq<int>, table: Table<V>)
    requires Window(res.frame, sheet, origin.row, origin.col)
    requires TableOf(res.frame, res.from, res.to, nheader, widths) == Ok(table)
    ensures Drawn(Extracted(table, res.from, res.to), sheet, origin)
  {
    HeaderValues(sheet, res, origin, nheader, widths, table);
    BodyValues(sheet, res, origin, nheader, widths, table);
  }

  lemma ExtractedShape<V>(res: Resolved<V>, nheader: int, widths: seq<int>, table: Table<V>)
    requires TableOf(res.frame, res.from, res.to, nheader, widths) == Ok(table)
    ensures Shaped(Extracted(table, res.from, res.to), nheader, widths)
  {
    HeaderCells(res, nheader, widths, table);
    BodyCells(res, nheader, widths, table);
  }

  lemma HeaderCells<V>(res: Resolved<V>, nheader: int, widths: seq<int>, table: Table<V>)
    requires TableOf(res.frame, res.from, res.to, nheader, widths) == Ok(table)
    ensures var m := res.to.col - res.from.col + 1;
      forall i, j :: 0 <= i < |table.headers| && 0 <= j < |table.headers[i]| ==>
        table.headers[i][j].kind == Header && table.headers[i][j].bold &&
        table.headers[i][j].width == if |widths| == m && widths[j] != 0 then widths[j] else DefaultWidth
  {
  }

  lemma BodyCells<V>(res: Resolved<V>, nheader: int, widths: seq<int>, table: Table<V>)
    requires TableOf(res.frame, res.from, res.to, nheader, widths) == Ok(table)
    ensures var m := res.to.col - res.from.col + 1;
      forall k, j :: 0 <= k < |table.rows| && 0 <= j < |table.rows[k]| ==>
        table.rows[k][j].kind == Row && !table.rows[k][j].bold &&
        table.rows[k][j].width == if |widths| == m && widths[j] != 0 then widths[j] else DefaultWidth
  {
  }

  lemma HeaderValues<V>(sheet: Grid<V>, res: Resolved<V>, origin: Address, nheader: int, widths: seq<int>, table: Table<V>)
    requires Window(res.frame, sheet, origin.row, origin.col)
    requires TableOf(res.frame, res.from, res.to, nheader, widths) == Ok(table)
    ensures forall i, j :: 0 <= i < |table.headers| && 0 <= j < |table.headers[i]| ==>
      0 <= origin.row + i < sheet.Height() && 0 <= origin.col + j < sheet.width &&
      table.headers[i][j].value == sheet.cells[origin.row + i][origin.col + j]
  {
    forall i, j | 0 <= i < |table.headers| && 0 <= j < |table.headers[i]|
      ensures 0 <= origin.row + i < sheet.Height() && 0 <= origin.col + j < sheet.width
      ensures table.headers[i][j].value == sheet.cells[origin.row + i][origin.col + j]
    {
      var v := res.frame.cells[i][j];
    }
  }

  lemma BodyValues<V>(sheet: Grid<V>, res: Resolved<V>, origin: Address, nheader: int, widths: seq<int>, table: Table<V>)
    requires Window(res.frame, sheet, origin.row, origin.col)
    requires TableOf(res.frame, res.from, res.to, nheader, widths) == Ok(table)
    ensures forall k, j :: 0 <= k < |table.rows| && 0 <= j < |table.rows[k]| ==>
      0 <= origin.row + |table.headers| + k < sheet.Height() && 0 <= origin.col + j < sheet.width &&
      table.rows[k][j].value == sheet.cells[origin.row + |table.headers| + k][origin.col + j]
  {
    forall k, j | 0 <= k < |table.rows| && 0 <= j < |table.rows[k]|
      ensures 0 <= origin.row + |table.headers| + k < sheet.Height() && 0 <= origin.col + j < sheet.width
      ensures table.rows[k][j].value == sheet.cells[origin.row + |table.headers| + k][origin.col + j]
    {
      var v := res.frame.cells[|table.headers| + k][j];
    }
  }

  /** `create_table` as the program runs it: the endpoints resolved, then the loop. */
  method CreateTable<V>(sheet: Grid<V>, fromSpec: Option<string>, toSpec: Option<string>, nheader: int, widths: seq<int>)
    returns (r: Result<Extracted<V>>)
    ensures r == Extract(sheet, fromSpec, toSpec, nheader, widths)
  {
    var resolved := Resolve(sheet, fromSpec, toSpec);
    if resolved.Err? {
      return Err(resolved.error);
    }
    var res := resolved.value;
    var table := WalkRange(res.frame, res.from, res.to, nheader, widths);
    if table.Err? {
      return Err(table.error);
    }
    return Ok(Extracted(table.value, res.from, res.to));
  }

  // ---------------------------------------------------------------------------

  /** The first two failures happen before the loop: ValueError exactly when
      an endpoint given as text is neither a cell name nor comma-separated
      integers, and IndexError on a missing component exactly when both
      endpoints read but one of them has a single component. */
  lemma ExtractParseErrors<V>(sheet: Grid<V>, fromSpec: Option<string>, toSpec: Option<string>, nheader: int, widths: seq<int>)
    ensures var r := Extract(sheet, fromSpec, toSpec, nheader, widths);
      var fromBad := fromSpec.Some? && ParseEndpoint(fromSpec.value).Err?;
      var toBad := toSpec.Some? && ParseEndpoint(toSpec.value).Err?;
      && (r == Err(InvalidInteger) <==> fromBad || toBad)
      && (r == Err(MissingComponent) <==>
            && !fromBad && !toBad
            && ((fromSpec.Some? && |ParseEndpoint(fromSpec.value).value| < 2) ||
                (toSpec.Some? && |ParseEndpoint(toSpec.value).value| < 2)))
  {
    var res := Resolve(sheet, fromSpec, toSpec);
    if res.Ok? {
      var t := TableOf(res.value.frame, res.value.from, res.value.to, nheader, widths);
      assert t.Err? ==> t.error == EmptyRow || t.error == CellOutOfRange;
    }
  }

  /** Once the endpoints resolve, the extraction is the loop over the resolved frame. */
  lemma ExtractOfResolved<V>(sheet: Grid<V>, fromSpec: Option<string>, toSpec: Option<string>, nheader: int, widths: seq<int>)
    requires Resolve(sheet, fromSpec, toSpec).Ok?
    ensures var res := Resolve(sheet, fromSpec, toSpec).value;
      var t := TableOf(res.frame, res.from, res.to, nheader, widths);
      Extract(sheet, fromSpec, toSpec, nheader, widths) == if t.Ok? then Ok(Extracted(t.value, res.from, res.to)) else Err(t.error)
  {
  }

  /** Text that reads as the components `parts` names the cell of its first two. */
  lemma GivenOf(text: string, parts: seq<int>)
    requires ParseEndpoint(text) == Ok(parts) && |parts| >= 2
    ensures Readable(Some(text)) && Given(text) == Address(parts[0], parts[1])
  {
  }

  /** Two endpoints in order load the rows from the start's row on and the
      columns between the two, cut to as many rows as the range has. */
  lemma ResolveClosed<V>(sheet: Grid<V>, fromSpec: string, toSpec: string, from: seq<int>, to: seq<int>)
    requires ParseEndpoint(fromSpec) == Ok(from) && ParseEndpoint(toSpec) == Ok(to)
    requires |from| >= 2 && |to| >= 2
    requires 0 <= from[0] <= to[0] && 0 <= from[1] <= to[1]
    ensures var r := Resolve(sheet, Some(fromSpec), Some(toSpec));
      && r.Ok?
      && r.value.from == Address(from[0], from[1]) && r.value.to == Address(to[0], to[1])
      && r.value.frame.width == Clip(to[0] + 1, sheet.width) - Clip(from[0], sheet.width)
      && r.value.frame.Height() == SliceBound(to[1] - from[1] + 1, sheet.Height() - Clip(from[1], sheet.Height()))
  {
    GivenOf(fromSpec, from);
    GivenOf(toSpec, to);
    var r := Resolve(sheet, Some(fromSpec), Some(toSpec));
    assert r.Ok?;
    assert r.value.from == Address(from[0], from[1]) && r.value.to == Address(to[0], to[1]);
  }

  /** A range given by two endpoints that are in order succeeds exactly when
      its far corner lies inside the sheet; otherwise it fails on a cell
      outside the loaded frame. It is then reported with the endpoints as
      given. */
  lemma ClosedRange<V>(sheet: Grid<V>, fromSpec: string, toSpec: string, from: seq<int>, to: seq<int>,
                       nheader: int, widths: seq<int>)
    requires ParseEndpoint(fromSpec) == Ok(from) && ParseEndpoint(toSpec) == Ok(to)
    requires |from| >= 2 && |to| >= 2
    requires 0 <= from[0] <= to[0] && 0 <= from[1] <= to[1]
    ensures var r := Extract(sheet, Some(fromSpec), Some(toSpec), nheader, widths);
      && (r.Ok? <==> to[0] < sheet.width && to[1] < sheet.Height())
      && (r.Err? ==> r.error == CellOutOfRange)
      && (r.Ok? ==> r.value.from == Address(from[0], from[1]) && r.value.to == Address(to[0], to[1]))
  {
    ResolveClosed(sheet, fromSpec, toSpec, from, to);
    ExtractOfResolved(sheet, Some(fromSpec), Some(toSpec), nheader, widths);
    var res := Resolve(sheet, Some(fromSpec), Some(toSpec)).value;
    assert to[0] - from[0] + 1 > res.frame.width <==> to[0] >= sheet.width;
    assert to[1] - from[1] + 1 > res.frame.Height() <==> to[1] >= sheet.Height();
  }

  /** An end cell above the start cell gives an empty table, whatever the
      sheet and whatever the columns. */
  lemma BackwardsRange<V>(sheet: Grid<V>, fromSpec: string, toSpec: string, from: seq<int>, to: seq<int>,
                          nheader: int, widths: seq<int>)
    requires ParseEndpoint(fromSpec) == Ok(from) && ParseEndpoint(toSpec) == Ok(to)
    requires |from| >= 2 && |to| >= 2
    requires to[1] < from[1]
    ensures Extract(sheet, Some(fromSpec), Some(toSpec), nheader, widths) ==
      Ok(Extracted(Table([], []), Address(from[0], from[1]), Address(to[0], to[1])))
  {
    GivenOf(fromSpec, from);
    GivenOf(toSpec, to);
    ExtractOfResolved(sheet, Some(fromSpec), Some(toSpec), nheader, widths);
  }

  /** An end cell left of the start cell, on or below the start's row, makes
      the first row of the loop empty: IndexError on `cols[0]`. */
  lemma ReversedColumns<V>(sheet: Grid<V>, fromSpec: string, toSpec: string, from: seq<int>, to: seq<int>,
                           nheader: int, widths: seq<int>)
    requires ParseEndpoint(fromSpec) == Ok(from) && ParseEndpoint(toSpec) == Ok(to)
    requires |from| >= 2 && |to| >= 2
    requires to[0] < from[0] && from[1] <= to[1]
    ensures Extract(sheet, Some(fromSpec), Some(toSpec), nheader, widths) == Err(EmptyRow)
  {
    GivenOf(fromSpec, from);
    GivenOf(toSpec, to);
    ExtractOfResolved(sheet, Some(fromSpec), Some(toSpec), nheader, widths);
  }

  /** Without an end cell the sheet is loaded from the start's row and column
      on, and the range runs to the frame's last row and column, which is
      the sheet's last cell whenever the start lies within the sheet. The
      extraction then fails (on an empty first row) only when the start lies
      to the right of every column while rows remain. */
  lemma OpenEndedRange<V>(sheet: Grid<V>, fromSpec: string, from: seq<int>, nheader: int, widths: seq<int>)
    requires ParseEndpoint(fromSpec) == Ok(from) && |from| >= 2
    ensures var width := sheet.width - SliceBound(from[0], sheet.width);
      var height := sheet.Height() - Clip(from[1], sheet.Height());
      var r := Extract(sheet, Some(fromSpec), None, nheader, widths);
      && (r.Ok? <==> width > 0 || height == 0)
      && (r.Err? ==> r.error == EmptyRow)
      && (r.Ok? ==> r.value.from == Address(from[0], from[1]))
      && (r.Ok? ==> r.value.to == Address(from[0] + width - 1, from[1] + height - 1))
      && (r.Ok? ==> |r.value.table.headers| + |r.value.table.rows| == height)
  {
    GivenOf(fromSpec, from);
    var res := Resolve(sheet, Some(fromSpec), None).value;
    var width := sheet.width - SliceBound(from[0], sheet.width);
    var height := sheet.Height() - Clip(from[1], sheet.Height());
    assert res.from == Address(from[0], from[1]);
    assert res.frame.width == width && res.frame.Height() == height;
    ExtractWholeFrame(sheet, Some(fromSpec), None, nheader, widths);
  }

  /** A start inside the sheet with no end runs to the sheet's last cell. */
  lemma OpenEndedRangeReachesCorner<V>(sheet: Grid<V>, fromSpec: string, from: seq<int>, nheader: int, widths: seq<int>)
    requires ParseEndpoint(fromSpec) == Ok(from) && |from| >= 2
    requires 0 <= from[0] <= sheet.width && 0 <= from[1] <= sheet.Height()
    ensures var r := Extract(sheet, Some(fromSpec), None, nheader, widths);
      r.Ok? ==> r.value.to == Address(sheet.width - 1, sheet.Height() - 1)
  {
    assert SliceBound(from[0], sheet.width) == from[0];
    assert Clip(from[1], sheet.Height()) == from[1];
    OpenEndedRange(sheet, fromSpec, from, nheader, widths);
  }

  /** A negative start column c with no end counts from the right, as
      `iloc[:, c:]` does: the range runs from the start to column -1 of the
      last row, and holds every row from the start row on. */
  lemma NegativeStartRange<V>(sheet: Grid<V>, fromSpec: string, from: seq<int>, nheader: int, widths: seq<int>)
    requires ParseEndpoint(fromSpec) == Ok(from) && |from| >= 2
    requires 0 <= sheet.width + from[0] && from[0] < 0 && 0 <= from[1] <= sheet.Height()
    ensures var r := Extract(sheet, Some(fromSpec), None, nheader, widths);
      && r.Ok?
      && r.value.from == Address(from[0], from[1]) && r.value.to == Address(-1, sheet.Height() - 1)
      && |r.value.table.headers| + |r.value.table.rows| == sheet.Height() - from[1]
  {
    assert SliceBound(from[0], sheet.width) == sheet.width + from[0];
    assert Clip(from[1], sheet.Height()) == from[1];
    OpenEndedRange(sheet, fromSpec, from, nheader, widths);
  }

  /** The table of a negative start column c with no end holds the sheet's
      last -c columns, read from the start row on. */
  lemma NegativeStartCountsFromRight<V>(sheet: Grid<V>, fromSpec: string, from: seq<int>, nheader: int, widths: seq<int>)
    requires ParseEndpoint(fromSpec) == Ok(from) && |from| >= 2
    requires 0 <= sheet.width + from[0] && from[0] < 0 && 0 <= from[1] <= sheet.Height()
    ensures var r := Extract(sheet, Some(fromSpec), None, nheader, widths);
      && r.Ok?
      && (forall i :: 0 <= i < |r.value.table.headers| ==> |r.value.table.headers[i]| == -from[0])
      && (forall k :: 0 <= k < |r.value.table.rows| ==> |r.value.table.rows[k]| == -from[0])
      && Drawn(r.value, sheet, Address(sheet.width + from[0], from[1]))
  {
    NegativeStartRange(sheet, fromSpec, from, nheader, widths);
    var r := Extract(sheet, Some(fromSpec), None, nheader, widths);
    RightmostWidths(r.value, from[0], nheader, widths);
    assert FrameOrigin(sheet, r.value.from, false) == Address(sheet.width + from[0], from[1]);
  }

  /** A start that reads as column -1, row 0, with no end selects the
      sheet's last column, every row of it, one cell per row. */
  lemma LastColumnStart<V>(sheet: Grid<V>, fromSpec: string, from: seq<int>, nheader: int, widths: seq<int>)
    requires ParseEndpoint(fromSpec) == Ok(from) && from == [-1, 0]
    requires sheet.width >= 1
    ensures var r := Extract(sheet, Some(fromSpec), None, nheader, widths);
      && r.Ok?
      && |r.value.table.headers| + |r.value.table.rows| == sheet.Height()
      && (forall i :: 0 <= i < |r.value.table.headers| ==> |r.value.table.headers[i]| == 1)
      && (forall k :: 0 <= k < |r.value.table.rows| ==> |r.value.table.rows[k]| == 1)
      && Drawn(r.value, sheet, Address(sheet.width - 1, 0))
  {
    assert |from| == 2 && from[0] == -1 && from[1] == 0;
    NegativeStartRange(sheet, fromSpec, from, nheader, widths);
    NegativeStartCountsFromRight(sheet, fromSpec, from, nheader, widths);
    assert Address(sheet.width + from[0], from[1]) == Address(sheet.width - 1, 0);
  }

  /** Every row of a table whose range runs from column c to column -1
      has -c cells. */
  lemma RightmostWidths<V>(x: Extracted<V>, c: int, nheader: int, widths: seq<int>)
    requires x.from.col == c && x.to.col == -1
    requires Shaped(x, nheader, widths)
    ensures forall i :: 0 <= i < |x.table.headers| ==> |x.table.headers[i]| == -c
    ensures forall k :: 0 <= k < |x.table.rows| ==> |x.table.rows[k]| == -c
  {
  }

  /** When the range is exactly the resolved frame, the extraction fails only
      on an empty first row, and otherwise has one row per frame row. */
  lemma ExtractWholeFrame<V>(sheet: Grid<V>, fromSpec: Option<string>, toSpec: Option<string>, nheader: int, widths: seq<int>)
    requires Resolve(sheet, fromSpec, toSpec).Ok?
    requires var res := Resolve(sheet, fromSpec, toSpec).value;
      res.to.col - res.from.col + 1 == res.frame.width && res.to.row - res.from.row + 1 == res.frame.Height()
    ensures var res := Resolve(sheet, fromSpec, toSpec).value;
      var r := Extract(sheet, fromSpec, toSpec, nheader, widths);
      && (r.Ok? <==> res.frame.width > 0 || res.frame.Height() == 0)
      && (r.Err? ==> r.error == EmptyRow)
      && (r.Ok? ==> r.value.from == res.from && r.value.to == res.to)
      && (r.Ok? ==> |r.value.table.headers| + |r.value.table.rows| == res.frame.Height())
  {
    var res := Resolve(sheet, fromSpec, toSpec).value;
    ExtractOfResolved(sheet, fromSpec, toSpec, nheader, widths);
    TableOfFullFrame(res.frame, res.from, res.to, nheader, widths);
  }

  /** A range exactly as large as its frame fails only on an empty first row. */
  lemma TableOfFullFrame<V>(frame: Grid<V>, from: Address, to: Address, nheader: int, widths: seq<int>)
    requires to.col - from.col + 1 == frame.width && to.row - from.row + 1 == frame.Height()
    ensures var t := TableOf(frame, from, to, nheader, widths);
      && (t.Ok? <==> frame.width > 0 || frame.Height() == 0)
      && (t.Err? ==> t.error == EmptyRow)
      && (t.Ok? ==> |t.value.headers| + |t.value.rows| == frame.Height())
  {
  }

  /** Without a start cell the whole sheet is loaded and the range starts at
      (0, 0): it succeeds when it is empty, or when its end lies inside the
      sheet at column 0 or beyond; otherwise it fails on an empty first row
      (end left of column 0) or on a cell outside the sheet. */
  lemma OpenStartRange<V>(sheet: Grid<V>, toSpec: string, to: seq<int>, nheader: int, widths: seq<int>)
    requires ParseEndpoint(toSpec) == Ok(to) && |to| >= 2
    ensures var r := Extract(sheet, None, Some(toSpec), nheader, widths);
      var n := to[1] + 1;
      var m := to[0] + 1;
      && (r.Err? <==> n > 0 && (m <= 0 || n > sheet.Height() || m > sheet.width))
      && (r.Err? ==> r.error == if to[0] < 0 then EmptyRow else CellOutOfRange)
      && (r.Ok? ==> r.value.from == Address(0, 0) && r.value.to == Address(to[0], to[1]))
      && (r.Ok? ==> |r.value.table.headers| + |r.value.table.rows| == if n <= 0 then 0 else n)
  {
    GivenOf(toSpec, to);
    ExtractOfResolved(sheet, None, Some(toSpec), nheader, widths);
  }

  /** With neither endpoint the range is the whole sheet. */
  lemma WholeSheet<V>(sheet: Grid<V>, nheader: int, widths: seq<int>)
    ensures var r := Extract(sheet, None, None, nheader, widths);
      && (r.Ok? <==> sheet.width > 0 || sheet.Height() == 0)
      && (r.Err? ==> r.error == EmptyRow)
      && (r.Ok? ==> r.value.from == Address(0, 0) && r.value.to == Address(sheet.width - 1, sheet.Height() - 1))
      && (r.Ok? ==> |r.value.table.headers| + |r.value.table.rows| == sheet.Height())
  {
    ExtractWholeFrame(sheet, None, None, nheader, widths);
  }
}

=== FILE: results.dfy ===
/** Failure-carrying values shared by the model: an optional value, and the
    result of an operation that can raise one of the errors `create_table`
    can end with. */
module Results {

  datatype Option<+T> = None | Some(value: T)

  /** The exceptions the extraction can end with. */
  datatype Error =
    | InvalidInteger     // ValueError: a comma-separated piece is not an integer
    | MissingComponent   // IndexError: an endpoint tuple has fewer than two integers
    | CellOutOfRange     // IndexError: a cell of the range lies outside the loaded frame
    | EmptyRow           // IndexError: a row of the range has no columns

  datatype Result<+T> = Ok(value: T) | Err(error: Error) {

    predicate IsFailure() {
      Err?
    }

    function PropagateFailure<U>(): Result<U>
      requires Err?
    {
      Err(error)
    }

    function Extract(): T
      requires Ok?
    {
      value
    }
  }
}

=== FILE: scenarios.dfy ===
/** The ranges the repository's tests and the class documentation read,
    stated for every sheet large enough to hold them. */
module Scenarios {
  import opened Results
  import opened Text
  import opened Coordinates
  import opened Addresses
  import opened Sheets
  import opened Extraction

  /** A cell name made of capitals and a one-digit row reads as toindex gives it. */
  lemma ShortName(text: string, letters: string, digit: nat)
    requires 1 <= digit <= 9 && |letters| >= 1 && forall i :: 0 <= i < |letters| ==> IsUpper(letters[i])
    requires text == letters + [DigitChar(digit)]
    ensures ParseEndpoint(text) == Ok([ColumnIndex(letters), digit - 1])
  {
    assert DecimalString(digit) == [DigitChar(digit)];
    NamedEndpoint(letters, digit, "");
    assert letters + DecimalString(digit) + "" == text;
  }

  lemma NameA1()
    ensures ParseEndpoint("A1") == Ok([0, 0])
  {
    ShortName("A1", "A", 1);
  }

  lemma NameB2()
    ensures ParseEndpoint("B2") == Ok([1, 1])
  {
    ShortName("B2", "B", 2);
  }

  lemma NameC3()
    ensures ParseEndpoint("C3") == Ok([2, 2])
  {
    ShortName("C3", "C", 3);
  }

  lemma NameB4()
    ensures ParseEndpoint("B4") == Ok([1, 3])
  {
    ShortName("B4", "B", 4);
  }

  lemma NameC4()
    ensures ParseEndpoint("C4") == Ok([2, 3])
  {
    ShortName("C4", "C", 4);
  }

  lemma NameF9()
    ensures ParseEndpoint("F9") == Ok([5, 8])
  {
    ShortName("F9", "F", 9);
  }

  /** A cell name written as capitals and a row number reads as toindex gives it. */
  lemma LongName(text: string, letters: string, number: nat)
    requires number >= 1 && |letters| >= 1 && forall i :: 0 <= i < |letters| ==> IsUpper(letters[i])
    requires text == letters + DecimalString(number)
    ensures ParseEndpoint(text) == Ok([ColumnIndex(letters), number - 1])
  {
    NamedEndpoint(letters, number, "");
    assert letters + DecimalString(number) + "" == text;
  }

  lemma NameB10()
    ensures ParseEndpoint("B10") == Ok([1, 9])
  {
    assert DecimalString(10) == "10";
    LongName("B10", "B", 10);
    assert ColumnIndex("B") == 1;
  }

  lemma NameB11()
    ensures ParseEndpoint("B11") == Ok([1, 10])
  {
    assert DecimalString(11) == "11";
    LongName("B11", "B", 11);
    assert ColumnIndex("B") == 1;
  }

  /** B2 to C3 without header lines: two body rows of two cells, holding
      the sheet's values from B2 to C3. */
  lemma QuadrantB2C3<V>(sheet: Grid<V>)
    requires sheet.width >= 3 && sheet.Height() >= 3
    ensures var r := Extract(sheet, Some("B2"), Some("C3"), 0, []);
      && r.Ok? && |r.value.table.headers| == 0 && |r.value.table.rows| == 2
      && (forall k :: 0 <= k < 2 ==> |r.value.table.rows[k]| == 2)
      && (forall k, j :: 0 <= k < 2 && 0 <= j < 2 ==> r.value.table.rows[k][j].value == sheet.cells[1 + k][1 + j])
  {
    NameB2();
    NameC3();
    ClosedRange(sheet, "B2", "C3", [1, 1], [2, 2], 0, []);
    var r := Extract(sheet, Some("B2"), Some("C3"), 0, []);
    QuadrantCells(r.value, sheet);
  }

  lemma QuadrantCells<V>(x: Extracted<V>, sheet: Grid<V>)
    requires x.from == Address(1, 1) && x.to == Address(2, 2)
    requires Shaped(x, 0, []) && Drawn(x, sheet, x.from)
    ensures |x.table.headers| == 0 && |x.table.rows| == 2
    ensures forall k :: 0 <= k < 2 ==> |x.table.rows[k]| == 2
    ensures forall k, j :: 0 <= k < 2 && 0 <= j < 2 ==> x.table.rows[k][j].value == sheet.cells[1 + k][1 + j]
  {
  }

  /** A1 to B4 with one header line: the first row is the header, three body rows follow. */
  lemma HeaderAndThreeRows<V>(sheet: Grid<V>)
    requires sheet.width >= 2 && sheet.Height() >= 4
    ensures var r := Extract(sheet, Some("A1"), Some("B4"), 1, []);
      && r.Ok? && |r.value.table.headers| == 1 && |r.value.table.rows| == 3
      && |r.value.table.headers[0]| == 2
      && (forall j :: 0 <= j < |r.value.table.headers[0]| ==> r.value.table.headers[0][j].bold)
  {
    NameA1();
    NameB4();
    ClosedRange(sheet, "A1", "B4", [0, 0], [1, 3], 1, []);
    var r := Extract(sheet, Some("A1"), Some("B4"), 1, []);
    HeaderRowCells(r.value);
  }

  lemma HeaderRowCells<V>(x: Extracted<V>)
    requires x.from == Address(0, 0) && x.to == Address(1, 3)
    requires Shaped(x, 1, [])
    ensures |x.table.headers| == 1 && |x.table.rows| == 3 && |x.table.headers[0]| == 2
    ensures forall j :: 0 <= j < |x.table.headers[0]| ==> x.table.headers[0][j].bold
  {
    assert |x.table.headers| == 1;
  }

  /** A1 to A1 with one header line: a single header row and no body rows. */
  lemma SingleHeaderCell<V>(sheet: Grid<V>)
    requires sheet.width >= 1 && sheet.Height() >= 1
    ensures var r := Extract(sheet, Some("A1"), Some("A1"), 1, []);
      r.Ok? && |r.value.table.headers| == 1 && |r.value.table.rows| == 0 &&
      r.value.table.headers[0] == [Cell(Header, DefaultWidth, sheet.cells[0][0], true)]
  {
    NameA1();
    ClosedRange(sheet, "A1", "A1", [0, 0], [0, 0], 1, []);
  }

  /** B2 to A1 runs backwards: whatever the sheet, the table is empty. */
  lemma BackwardsRangeIsEmpty<V>(sheet: Grid<V>)
    ensures var r := Extract(sheet, Some("B2"), Some("A1"), 1, []);
      r.Ok? && r.value.table == Table([], [])
  {
    NameB2();
    NameA1();
    BackwardsRange(sheet, "B2", "A1", [1, 1], [0, 0], 1, []);
  }

  /** The documented endpoints: A1 to C4 is (0, 0) to (2, 3); B10 to B11 is (1, 9) to (1, 10). */
  lemma DocumentedEndpoints<V>(sheet: Grid<V>)
    requires sheet.width >= 3 && sheet.Height() >= 11
    ensures var r := Extract(sheet, Some("A1"), Some("C4"), 0, []);
      r.Ok? && r.value.from == Address(0, 0) && r.value.to == Address(2, 3)
    ensures var r := Extract(sheet, Some("B10"), Some("B11"), 0, []);
      r.Ok? && r.value.from == Address(1, 9) && r.value.to == Address(1, 10)
  {
    NameA1();
    NameC4();
    NameB10();
    NameB11();
    ClosedRange(sheet, "A1", "C4", [0, 0], [2, 3], 0, []);
    ClosedRange(sheet, "B10", "B11", [1, 9], [1, 10], 0, []);
  }

  /** From the start of the sheet to F9: the frame is the whole sheet, so the
      range succeeds exactly on sheets of at least 6 columns and 9 rows, and
      then has 9 rows; fewer rows fail on a cell outside the frame. */
  lemma OpenStartToF9<V>(sheet: Grid<V>, widths: seq<int>)
    ensures var r := Extract(sheet, None, Some("F9"), 0, widths);
      && (r.Ok? <==> sheet.width >= 6 && sheet.Height() >= 9)
      && (r.Ok? ==> |r.value.table.headers| == 0 && |r.value.table.rows| == 9)
      && (r.Err? ==> r.error == CellOutOfRange)
  {
    NameF9();
    OpenStartRange(sheet, "F9", [5, 8], 0, widths);
    var r := Extract(sheet, None, Some("F9"), 0, widths);
    assert r.Ok? ==> |r.value.table.headers| == 0 by {
      if r.Ok? {
        assert Shaped(r.value, 0, widths);
      }
    }
  }

  /** "-1,0" is not a cell name and reads as the start column -1 and row 0;
      with no end, on a sheet with at least one column, the table is the
      sheet's last column. */
  lemma MinusOneCommaZero<V>(sheet: Grid<V>, nheader: int, widths: seq<int>)
    requires sheet.width >= 1
    ensures ParseEndpoint("-1,0") == Ok([-1, 0])
    ensures var r := Extract(sheet, Some("-1,0"), None, nheader, widths);
      && r.Ok?
      && |r.value.table.headers| + |r.value.table.rows| == sheet.Height()
      && (forall i :: 0 <= i < |r.value.table.headers| ==> |r.value.table.headers[i]| == 1)
      && (forall k :: 0 <= k < |r.value.table.rows| ==> |r.value.table.rows[k]| == 1)
      && Drawn(r.value, sheet, Address(sheet.width - 1, 0))
  {
    MinusOneCommaZeroReads();
    LastColumnStart(sheet, "-1,0", [-1, 0], nheader, widths);
  }

  /** How "-1,0" reads. */
  lemma MinusOneCommaZeroReads()
    ensures ParseEndpoint("-1,0") == Ok([-1, 0])
  {
    assert FormatInteger(-1) == "-1" by {
      assert DecimalString(1) == "1";
    }
    assert FormatInteger(0) == "0";
    LoosePairRoundTrip(-1, 0);
    assert "-1" + "," + "0" == "-1,0";
  }
}

=== FILE: sheets.dfy ===
/** The data frame `create_table` works on, reduced to a rectangular grid of
    opaque cell values, with the reads and slices it applies to it: the
    loader's `skiprows` and `usecols`, and pandas' positional `iloc` slices,
    which follow Python's slice rules (a negative bound counts from the end). */
module Sheets {
  import opened Results

  datatype Frame<V> = Frame(width: nat, cells: seq<seq<V>>) {

    predicate Rectangular() {
      forall i :: 0 <= i < |cells| ==> |cells[i]| == width
    }

    function Height(): nat {
      |cells|
    }
  }

  /** A frame whose rows all have `width` values. */
  type Grid<V> = g: Frame<V> | g.Rectangular() witness Frame(0, [])

  /** `g` is the part of `sheet` whose top-left cell is at (row, col): it
      fits inside the sheet there, and every value of `g` is the sheet's. */
  ghost predicate Window<V>(g: Grid<V>, sheet: Grid<V>, row: int, col: int) {
    && (g.Height() > 0 && g.width > 0 ==>
          0 <= row && row + g.Height() <= sheet.Height() && 0 <= col && col + g.width <= sheet.width)
    && forall i, j :: 0 <= i < g.Height() && 0 <= j < g.width ==> g.cells[i][j] == sheet.cells[row + i][col + j]
  }

  /** A window of a window is a window of the whole. */
  lemma WindowCompose<V>(a: Grid<V>, b: Grid<V>, c: Grid<V>, r1: int, c1: int, r2: int, c2: int)
    requires Window(a, b, r1, c1) && Window(b, c, r2, c2)
    ensures Window(a, c, r1 + r2, c1 + c2)
  {
    forall i, j | 0 <= i < a.Height() && 0 <= j < a.width
      ensures a.cells[i][j] == c.cells[r1 + r2 + i][c1 + c2 + j]
    {
      var w := b.cells[r1 + i][c1 + j];
    }
  }

  /** Where the slice bound `k` falls in a sequence of length `n`, as Python
      reads it: a negative bound counts from the end, and bounds are clipped. */
  function SliceBound(k: int, n: nat): (b: nat)
    ensures b <= n
    ensures 0 <= k <= n ==> b == k
    ensures k > n ==> b == n
    ensures k < 0 && n + k >= 0 ==> b == n + k
    ensures n + k < 0 ==> b == 0
  {
    if k >= 0 then (if k <= n then k else n) else if n + k >= 0 then n + k else 0
  }

  /** `k` clipped into 0..n. */
  function Clip(k: int, n: nat): (b: nat)
    ensures b <= n
  {
    if k < 0 then 0 else if k > n then n else k
  }

  /** `iloc[:k, :]`: the first rows, up to the slice bound k. */
  function TakeRows<V>(g: Grid<V>, k: int): (r: Grid<V>)
    ensures r.width == g.width && r.Height() == SliceBound(k, g.Height())
    ensures Window(r, g, 0, 0)
  {
    Frame(g.width, g.cells[..SliceBound(k, g.Height())])
  }

  /** `iloc[:, k:]`: every row from the column at slice bound k on. */
  function DropColumns<V>(g: Grid<V>, k: int): (r: Grid<V>)
    ensures r.Height() == g.Height() && r.width == g.width - SliceBound(k, g.width)
    ensures Window(r, g, 0, SliceBound(k, g.width))
    ensures k >= 0 ==> Window(r, g, 0, k)
  {
    var start := SliceBound(k, g.width);
    Frame(g.width - start, seq(g.Height(), i requires 0 <= i < g.Height() => g.cells[i][start..]))
  }

  /** The loader's `skiprows=k`: the sheet without its first k rows. */
  function SkipRows<V>(g: Grid<V>, k: int): (r: Grid<V>)
    ensures r.width == g.width && r.Height() == g.Height() - Clip(k, g.Height())
    ensures k >= 0 ==> Window(r, g, k, 0)
    ensures Window(r, g, Clip(k, g.Height()), 0)
  {
    Frame(g.width, g.cells[Clip(k, g.Height())..])
  }

  /** The loader's `usecols=list(range(a, b + 1))`: the sheet's columns whose
      position lies in a..b, in order; none when b < a. */
  function SelectColumns<V>(g: Grid<V>, a: int, b: int): (r: Grid<V>)
    ensures r.Height() == g.Height()
    ensures b < a ==> r.width == 0
    ensures a <= b ==> r.width == Clip(b + 1, g.width) - Clip(a, g.width)
    ensures a >= 0 ==> Window(r, g, 0, a)
    ensures Window(r, g, 0, Clip(a, g.width))
  {
    var lo := Clip(a, g.width);
    var hi := if Clip(b + 1, g.width) < lo then lo else Clip(b + 1, g.width);
    Frame(hi - lo, seq(g.Height(), i requires 0 <= i < g.Height() => g.cells[i][lo..hi]))
  }

  /** `pandas.read_excel(..., usecols=..., skiprows=...)` on one sheet: rows
      are skipped first, then the columns chosen. */
  function Load<V>(sheet: Grid<V>, usecols: Option<(int, int)>, skiprows: Option<int>): (r: Grid<V>)
    ensures skiprows.None? && usecols.None? ==> r == sheet
    ensures skiprows.Some? ==> r.Height() == sheet.Height() - Clip(skiprows.value, sheet.Height())
    ensures skiprows.None? ==> r.Height() == sheet.Height()
    ensures usecols.None? ==> r.width == sheet.width
    ensures usecols.Some? && usecols.value.1 < usecols.value.0 ==> r.width == 0
    ensures usecols.Some? && usecols.value.0 <= usecols.value.1 ==>
      r.width == Clip(usecols.value.1 + 1, sheet.width) - Clip(usecols.value.0, sheet.width)
    ensures var row := if skiprows.Some? then skiprows.value else 0;
            var col := if usecols.Some? then usecols.value.0 else 0;
            row >= 0 && col >= 0 ==> Window(r, sheet, row, col)
    ensures var row := if skiprows.Some? then Clip(skiprows.value, sheet.Height()) else 0;
            var col := if usecols.Some? then Clip(usecols.value.0, sheet.width) else 0;
            Window(r, sheet, row, col)
  {
    var rows := if skiprows.Some? then SkipRows(sheet, skiprows.value) else sheet;
    var row := if skiprows.Some? then skiprows.value else 0;
    assert row >= 0 ==> Window(rows, sheet, row, 0);
    var top := if skiprows.Some? then Clip(skiprows.value, sheet.Height()) else 0;
    assert Window(rows, sheet, top, 0);
    if usecols.Some? then
      var r := SelectColumns(rows, usecols.value.0, usecols.value.1);
      assert usecols.value.0 >= 0 && row >= 0 ==> Window(r, sheet, row, usecols.value.0) by {
        if usecols.value.0 >= 0 && row >= 0 {
          WindowCompose(r, rows, sheet, 0, usecols.value.0, row, 0);
        }
      }
      WindowCompose(r, rows, sheet, 0, Clip(usecols.value.0, sheet.width), top, 0);
      r
    else
      assert Window(sheet, sheet, 0, 0);
      rows
  }

}

=== FILE: text.dfy ===
/** The pieces of Python's string handling the extraction relies on: `int()`
    applied to a piece of text, and `str.split` on a separator character. */
module Text {
  import opened Results

  predicate IsDigit(ch: char) {
    '0' <= ch <= '9'
  }

  predicate IsUpper(ch: char) {
    'A' <= ch <= 'Z'
  }

  /** The ASCII characters `str.strip()` removes. */
  predicate IsSpace(ch: char) {
    ch == ' ' || ch == '\t' || ch == '\n' || ch == '\r' || ch == '\U{B}' || ch == '\U{C}'
  }

  predicate AllDigits(s: string) {
    forall i :: 0 <= i < |s| ==> IsDigit(s[i])
  }

  function DigitValue(ch: char): (d: nat)
    requires IsDigit(ch)
    ensures d < 10
  {
    ch as int - '0' as int
  }

  function DigitChar(d: nat): (ch: char)
    requires d < 10
    ensures IsDigit(ch) && DigitValue(ch) == d
  {
    ('0' as int + d) as char
  }

  /** The number a string of decimal digits denotes, most significant digit first. */
  function DecimalValue(s: string): nat
    requires AllDigits(s)
  {
    if |s| == 0 then 0 else DecimalValue(s[..|s| - 1]) * 10 + DigitValue(s[|s| - 1])
  }

  /** The shortest decimal rendering of `n`, as Python's `str(n)`. */
  function DecimalString(n: nat): (s: string)
    ensures |s| >= 1 && AllDigits(s)
    ensures n >= 1 ==> s[0] != '0'
  {
    if n < 10 then [DigitChar(n)] else DecimalString(n / 10) + [DigitChar(n % 10)]
  }

  lemma {:induction false} DecimalRoundTrip(n: nat)
    ensures DecimalValue(DecimalString(n)) == n
  {
    if n >= 10 {
      var s := DecimalString(n);
      assert s[..|s| - 1] == DecimalString(n / 10);
      DecimalRoundTrip(n / 10);
    }
  }

  /** A digit string that does not start with 0 denotes a positive number. */
  lemma {:induction false} DecimalValuePositive(s: string)
    requires |s| >= 1 && AllDigits(s) && s[0] != '0'
    ensures DecimalValue(s) >= 1
  {
    if |s| > 1 {
      DecimalValuePositive(s[..|s| - 1]);
    }
  }

  /** A digit string without a leading 0 is how `str()` writes its value. */
  lemma {:induction false} DecimalStringOfValue(s: string)
    requires |s| >= 1 && AllDigits(s) && s[0] != '0'
    ensures DecimalString(DecimalValue(s)) == s
  {
    var init := s[..|s| - 1];
    var d := DigitValue(s[|s| - 1]);
    assert DigitChar(d) == s[|s| - 1];
    if |s| == 1 {
      assert DecimalValue(s) == DecimalValue(init) * 10 + d;
      assert init == "";
    } else {
      assert init[0] == s[0];
      DecimalValuePositive(init);
      DecimalStringOfValue(init);
      var v := DecimalValue(s);
      assert v == DecimalValue(init) * 10 + d;
      assert v / 10 == DecimalValue(init) && v % 10 == d;
      assert s == init + [s[|s| - 1]];
    }
  }

  /** `s` without its leading whitespace. */
  function TrimStart(s: string): (t: string)
    ensures |t| <= |s| && t == s[|s| - |t|..]
    ensures |t| > 0 ==> !IsSpace(t[0])
    ensures forall i :: 0 <= i < |s| - |t| ==> IsSpace(s[i])
  {
    if |s| > 0 && IsSpace(s[0]) then TrimStart(s[1..]) else s
  }

  /** `s` without its trailing whitespace. */
  function TrimEnd(s: string): (t: string)
    ensures |t| <= |s| && t == s[..|t|]
    ensures |t| > 0 ==> !IsSpace(t[|t| - 1])
    ensures forall i :: |t| <= i < |s| ==> IsSpace(s[i])
  {
    if |s| > 0 && IsSpace(s[|s| - 1]) then TrimEnd(s[..|s| - 1]) else s
  }

  function Strip(s: string): string {
    TrimEnd(TrimStart(s))
  }

  lemma {:induction false} TrimStartPadding(pad: string, x: string)
    requires forall i :: 0 <= i < |pad| ==> IsSpace(pad[i])
    requires |x| > 0 ==> !IsSpace(x[0])
    ensures TrimStart(pad + x) == x
  {
    if |pad| > 0 {
      assert (pad + x)[1..] == pad[1..] + x;
      TrimStartPadding(pad[1..], x);
    }
  }

  lemma {:induction false} TrimEndPadding(x: string, pad: string)
    requires forall i :: 0 <= i < |pad| ==> IsSpace(pad[i])
    requires |x| > 0 ==> !IsSpace(x[|x| - 1])
    ensures TrimEnd(x + pad) == x
  {
    if |pad| > 0 {
      assert (x + pad)[..|x + pad| - 1] == x + pad[..|pad| - 1];
      TrimEndPadding(x, pad[..|pad| - 1]);
    } else {
      assert x + pad == x;
    }
  }

  /** Python's `int(s)` on text: surrounding whitespace, an optional sign and
      at least one decimal digit; anything else raises ValueError (None). */
  function ParseInteger(s: string): Option<int> {
    ParseSigned(Strip(s))
  }

  /** An optional sign followed by at least one decimal digit, and nothing else. */
  function ParseSigned(t: string): Option<int> {
    if |t| > 0 && (t[0] == '-' || t[0] == '+') then
      var digits := t[1..];
      if |digits| > 0 && AllDigits(digits) then
        var magnitude: int := DecimalValue(digits);
        Some(if t[0] == '-' then -magnitude else magnitude)
      else
        None
    else if |t| > 0 && AllDigits(t) then
      Some(DecimalValue(t))
    else
      None
  }

  /** Python's `str(n)` for an integer. */
  function FormatInteger(n: int): (s: string)
    ensures |s| >= 1 && !IsSpace(s[0]) && !IsSpace(s[|s| - 1])
    ensures s[0] == '-' || IsDigit(s[0])
    ensures forall i :: 0 <= i < |s| ==> s[i] == '-' || IsDigit(s[i])
  {
    if n < 0 then "-" + DecimalString(-n) else DecimalString(n)
  }

  /** `int()` reads back what `str()` writes, whatever whitespace surrounds it. */
  lemma {:induction false} IntegerRoundTrip(n: int, before: string, after: string)
    requires forall i :: 0 <= i < |before| ==> IsSpace(before[i])
    requires forall i :: 0 <= i < |after| ==> IsSpace(after[i])
    ensures ParseInteger(before + FormatInteger(n) + after) == Some(n)
  {
    StripPadding(before, FormatInteger(n), after);
    SignedRoundTrip(n);
  }

  lemma SignedRoundTrip(n: int)
    ensures ParseSigned(FormatInteger(n)) == Some(n)
  {
    if n < 0 {
      NegativeRoundTrip(n);
    } else {
      DecimalRoundTrip(n);
      DigitsParse(DecimalString(n));
    }
  }

  lemma NegativeRoundTrip(n: int)
    requires n < 0
    ensures ParseSigned(FormatInteger(n)) == Some(n)
  {
    var d := DecimalString(-n);
    DecimalRoundTrip(-n);
    MinusDigitsParse(d);
  }

  lemma MinusDigitsParse(d: string)
    requires |d| > 0 && AllDigits(d)
    ensures ParseSigned("-" + d) == Some(0 - DecimalValue(d))
  {
    var x := "-" + d;
    assert x[0] == '-' && x[1..] == d;
  }

  lemma DigitsParse(s: string)
    requires |s| > 0 && AllDigits(s)
    ensures ParseSigned(s) == Some(DecimalValue(s))
  {
    assert s[0] != '-' && s[0] != '+' by {
      assert IsDigit(s[0]);
    }
  }

  lemma {:induction false} StripPadding(before: string, x: string, after: string)
    requires forall i :: 0 <= i < |before| ==> IsSpace(before[i])
    requires forall i :: 0 <= i < |after| ==> IsSpace(after[i])
    requires |x| > 0 && !IsSpace(x[0]) && !IsSpace(x[|x| - 1])
    ensures Strip(before + x + after) == x
  {
    assert before + x + after == before + (x + after);
    TrimStartPadding(before, x + after);
    TrimEndPadding(x, after);
  }

  lemma ParseIntegerRejectsBlank(s: string)
    requires forall i :: 0 <= i < |s| ==> IsSpace(s[i])
    ensures ParseInteger(s) == None
  {
    assert |TrimStart(s)| == 0;
  }

  /** Python's `s.split(sep)`: the pieces between the occurrences of `sep`. */
  function Split(s: string, sep: char): (pieces: seq<string>)
    ensures |pieces| >= 1
    ensures forall i :: 0 <= i < |pieces| ==> sep !in pieces[i]
  {
    if |s| == 0 then
      [""]
    else
      var rest := Split(s[1..], sep);
      if s[0] == sep then [""] + rest else [[s[0]] + rest[0]] + rest[1..]
  }

  /** Python's `sep.join(pieces)`. */
  function Join(pieces: seq<string>, sep: char): string
    requires |pieces| >= 1
  {
    if |pieces| == 1 then pieces[0] else pieces[0] + [sep] + Join(pieces[1..], sep)
  }

  /** Splitting loses nothing: joining the pieces gives the text back. */
  lemma {:induction false} SplitJoin(s: string, sep: char)
    ensures Join(Split(s, sep), sep) == s
  {
    if |s| > 0 {
      var rest := Split(s[1..], sep);
      SplitJoin(s[1..], sep);
      if s[0] == sep {
        assert ([""] + rest)[1..] == rest;
      } else {
        var pieces := [[s[0]] + rest[0]] + rest[1..];
        if |rest| > 1 {
          assert pieces[1..] == rest[1..];
          assert Join(rest, sep) == rest[0] + [sep] + Join(rest[1..], sep);
        }
      }
    }
  }

  lemma {:induction false} SplitPiece(p: string, sep: char, rest: string)
    requires sep !in p
    ensures Split(p + [sep] + rest, sep) == [p] + Split(rest, sep)
  {
    if |p| > 0 {
      assert (p + [sep] + rest)[1..] == p[1..] + [sep] + rest;
      SplitPiece(p[1..], sep, rest);
      assert [p[0]] + p[1..] == p;
    } else {
      assert p + [sep] + rest == [sep] + rest;
      assert ([sep] + rest)[1..] == rest;
    }
  }

  lemma {:induction false} SplitWithoutSeparator(p: string, sep: char)
    requires sep !in p
    ensures Split(p, sep) == [p]
  {
    if |p| > 0 {
      SplitWithoutSeparator(p[1..], sep);
      assert [p[0]] + p[1..] == p;
    }
  }

  /** Splitting undoes joining pieces that do not contain the separator. */
  lemma {:induction false} JoinSplit(pieces: seq<string>, sep: char)
    requires |pieces| >= 1
    requires forall i :: 0 <= i < |pieces| ==> sep !in pieces[i]
    ensures Split(Join(pieces, sep), sep) == pieces
  {
    if |pieces| == 1 {
      SplitWithoutSeparator(pieces[0], sep);
    } else {
      JoinSplit(pieces[1..], sep);
      SplitPiece(pieces[0], sep, Join(pieces[1..], sep));
      assert [pieces[0]] + pieces[1..] == pieces;
    }
  }
}
